=== FILE: README.md ===
# torch-mlir op-definition emitter, modelled in Dafny

`torch_ods_gen.py` writes the TableGen file that declares every PyTorch
operator of the Torch dialect. This project models the emission engine at its
core. It does not model the catalog of calls that drives the engine.

- **Type table.** `TORCH_TYPE_TO_ODS_TYPE` is a closed table from schema type
  spellings to ODS type predicates. `get_ods_type` looks a spelling up in it.
  Every `Dict(...)` spelling collapses to the generic dictionary predicate, and
  any other unknown spelling raises.
- **Block renderer.** `raw_emit_op` prints one `def` block:
  - the class header and the trait list, joined by `,\n`;
  - the summary;
  - the `ins` and `outs` clauses. Each collapses to a single variadic entry for
    a vararg (or varret) operator. Unnamed returns are called `result`, or
    `result<i>` when there are several.
  - the format section. A vararg or varret operator gets an `assemblyFormat`.
    Every other operator gets `hasCustomAssemblyFormat` plus parse/print hooks,
    which carry the declared argument and return counts.
  - the optional folder and canonicalizer markers;
  - the closing brace and a blank separator line.
- **Trait inference.** `emit_op` appends inferred traits to the caller's
  traits: `AllowsTypeRefinement` always, then `HasValueSemantics` and
  `ReadOnly` when they hold.
- **Registry helpers.** `emit` looks an operator up by key.
  `emit_with_mutating_variants` emits an operator, then looks up its in-place
  variant by triple and emits that with its own traits. The variant's triple is
  the name plus a trailing underscore, with the overload `functional` cleared.

Modules:

| file | module | what it holds |
|---|---|---|
| `wrappers.dfy` | `Wrappers` | `Option` and `Result` |
| `text.dfy` | `Text` | decimal rendering of counts (`str(i)`), `str.join`, prefix and containment facts |
| `operators.dfy` | `Operators` | operators, argument and return records, the two registry lookups, the error kinds |
| `sink.dfy` | `Sink` | the text sink: printed lines with their indentation depth, and the error that stopped printing |
| `ods_types.dfy` | `OdsTypes` | the type table and `get_ods_type` |
| `raw_emit.dfy` | `RawEmit` | `raw_emit_op` and everything it prints |
| `emit_ops.dfy` | `EmitOps` | `emit_op`, `emit` and `emit_with_mutating_variants` |
| `scenarios.dfy` | `Scenarios` | catalog operators worked through the model (`relu`, `add.Tensor`/`add_.Tensor`, `prim::Print`, `prim::tolist`, `quantized::linear`) |

### How the model reads the code

- **Output.** A step's output is the list of lines it printed, plus the error it
  raised, if any. A raise inside `raw_emit_op` leaves everything printed up to
  that point in the sink, so a failure carries those lines with it.
  - An unmapped argument type stops printing after `let arguments = (ins`.
  - An unmapped return type stops it after `let results = (outs`.
  - A vararg operator never resolves its argument types, and a varret operator
    never resolves its return types.
- **The hook line.** The `extraClassDefinition` line is stored as
  `HookLine(class, nargs, nrets)`. `RawEmit.LineText` prints it at depth 1 as
  `RawEmit.ExtraClassDefinition` of those values, and prints every other line
  as its own depth and text. `HookCountsDetermined` shows that the hook text
  determines both counts.
- **Registry verdicts.** Whether an operator has value semantics or is
  read-only is decided in `registry.py`, which is not part of this model. The
  operators in `scenarios.dfy` carry the verdicts such a schema gets, as their
  doc comments state. `relu` and `add.Tensor` mutate and alias nothing, so
  both flags are set. `add_.Tensor` mutates its operand, so neither is.
- **Return names.** A return name of `None` and one of `""` are both falsy
  under Python's `or`, so a missing return name is modelled as `""`.
- **Places where the code differs from a natural reading of its intent.** The
  model follows the code in each case:
  - The declarative `assemblyFormat` is emitted for vararg/varret operators
    (`torch_ods_gen.py` line 155). The custom parser and printer hooks are
    emitted for fixed-arity operators. It is not the other way round.
  - For the same reason, `relu` gets `hasCustomAssemblyFormat` and hooks with
    counts 1 and 1, not an `assemblyFormat` line.
  - Caller traits come before the inferred traits, and nothing is
    de-duplicated. `quantized::linear` is emitted with
    `traits=["HasValueSemantics"]` (lines 655-657). So if the registry judges it
    value-semantic, the trait is listed twice.
  - `emit_with_mutating_variants` is not atomic. The base block is printed
    before the variant is looked up, so a missing variant leaves the base block
    in the sink.

## Model

| member | source | states |
|---|---|---|
| OdsTypes.GetOdsType | python/torch_mlir/dialects/torch/importer/jit_ir/build_tools/torch_ods_gen.py:21-64 | `Dict(` spellings resolve to `Torch_DictType`. A table key resolves to its own entry. Any other spelling fails with an error naming it. Every resolved predicate is a Torch type predicate taken from the table. |
| Scenarios.OptionalTensorListType | python/torch_mlir/dialects/torch/importer/jit_ir/build_tools/torch_ods_gen.py:21-24 | `Tensor?[]` resolves to `AnyTorchListOfOptionalTensorType` |
| Scenarios.ParameterisedDictType | python/torch_mlir/dialects/torch/importer/jit_ir/build_tools/torch_ods_gen.py:56-60 | `Dict(str, t)` is not a key of the table, yet it resolves to the dictionary predicate |
| Scenarios.UnknownType | python/torch_mlir/dialects/torch/importer/jit_ir/build_tools/torch_ods_gen.py:56-64 | `Complex` fails, and the error names `Complex` |
| RawEmit.ResultName | python/torch_mlir/dialects/torch/importer/jit_ir/build_tools/torch_ods_gen.py:120-123 | A named return keeps its name. An unnamed return is `result` when it is the only return, and `result<i>` otherwise. |
| RawEmit.FirstSynthesizedName | python/torch_mlir/dialects/torch/importer/jit_ir/build_tools/torch_ods_gen.py:120-123 | Among several returns, an unnamed first return is called `result0` |
| RawEmit.SynthesizedNamesDistinct | python/torch_mlir/dialects/torch/importer/jit_ir/build_tools/torch_ods_gen.py:120-123 | Two different unnamed returns of one operator never get the same synthesized name |
| Text.NatToString | python/torch_mlir/dialects/torch/importer/jit_ir/build_tools/torch_ods_gen.py:123 | `str(i)` is a non-empty string of digits. It starts with `0` only for zero. A single-digit number is spelt as that one digit, so zero is exactly `0`. |
| Text.DecimalRoundTrip | python/torch_mlir/dialects/torch/importer/jit_ir/build_tools/torch_ods_gen.py:180 | Reading the printed decimal digits back gives the original count |
| Text.NatToStringInjective | python/torch_mlir/dialects/torch/importer/jit_ir/build_tools/torch_ods_gen.py:180 | Different counts print differently |
| Text.Join | python/torch_mlir/dialects/torch/importer/jit_ir/build_tools/torch_ods_gen.py:129 | `sep.join(xs)` is empty for no items and is the item itself for one item. A non-empty list's join starts with its first item. The join is empty exactly when every item is empty and no separator shows. |
| Text.JoinItems | python/torch_mlir/dialects/torch/importer/jit_ir/build_tools/torch_ods_gen.py:129 | Item `i` of `sep.join(xs)` starts after the items before it, each followed by one separator |
| Text.JoinSeparators | python/torch_mlir/dialects/torch/importer/jit_ir/build_tools/torch_ods_gen.py:129 | A separator follows every item of `sep.join(xs)` except the last |
| Text.JoinLength | python/torch_mlir/dialects/torch/importer/jit_ir/build_tools/torch_ods_gen.py:129 | `sep.join(xs)` is exactly as long as its items plus one separator between each pair of neighbours, so nothing else is printed |
| RawEmit.TypedEntriesSucceedIff | python/torch_mlir/dialects/torch/importer/jit_ir/build_tools/torch_ods_gen.py:139-152 | A non-variadic clause is built exactly when every declared type is in the table |
| RawEmit.TypedEntriesContents | python/torch_mlir/dialects/torch/importer/jit_ir/build_tools/torch_ods_gen.py:139-152 | Entry `i` is the predicate of type `i`, then `:$`, then name `i`, in declared order |
| RawEmit.TypedEntriesFirstFailure | python/torch_mlir/dialects/torch/importer/jit_ir/build_tools/torch_ods_gen.py:139-152 | A failed clause names an unmapped declared type, and every type before it is mapped |
| RawEmit.InsEntries | python/torch_mlir/dialects/torch/importer/jit_ir/build_tools/torch_ods_gen.py:134-143 | A vararg operator gets the single entry `Variadic<AnyTorchType>:$operands`. Otherwise there is one `pred:$name` entry per argument. The clause fails exactly when an argument type is unmapped, naming the first unmapped one in declared order. |
| RawEmit.OutsEntries | python/torch_mlir/dialects/torch/importer/jit_ir/build_tools/torch_ods_gen.py:144-153 | A varret operator gets `Variadic<AnyTorchType>:$results`. Otherwise there is one entry per return, named as `ResultName` says. The clause fails exactly when a return type is unmapped, naming the first unmapped one in declared order. |
| RawEmit.AssemblyFormat | python/torch_mlir/dialects/torch/importer/jit_ir/build_tools/torch_ods_gen.py:155-174 | The format is the operand part, then `` attr-dict `:` ``, then the operand-type clause, the arrow and the result-type clause |
| RawEmit.VarargFormat | python/torch_mlir/dialects/torch/importer/jit_ir/build_tools/torch_ods_gen.py:156-158 | A vararg format begins with the parenthesised operand group and its qualified type, so its operand-type clause is never empty |
| RawEmit.OperandTypesEmptyIff | python/torch_mlir/dialects/torch/importer/jit_ir/build_tools/torch_ods_gen.py:156-163 | The operand-type clause is empty exactly for a non-vararg operator without arguments |
| RawEmit.ResultTypesEmptyIff | python/torch_mlir/dialects/torch/importer/jit_ir/build_tools/torch_ods_gen.py:164-169 | The result-type clause is empty exactly for a non-varret operator without returns |
| RawEmit.ArrowIff | python/torch_mlir/dialects/torch/importer/jit_ir/build_tools/torch_ods_gen.py:170-173 | `` `->` `` appears exactly when both type clauses are non-empty, and is omitted otherwise |
| Scenarios.PrintFormat | python/torch_mlir/dialects/torch/importer/jit_ir/build_tools/torch_ods_gen.py:647 | `prim::Print` (vararg, no returns) has no arrow. Its format is the operand group, `` attr-dict `:` ``, and the operand type. |
| Scenarios.ToListFormat | python/torch_mlir/dialects/torch/importer/jit_ir/build_tools/torch_ods_gen.py:648 | `prim::tolist` (vararg and varret) has both type clauses joined by the arrow |
| RawEmit.HookCountsDetermined | python/torch_mlir/dialects/torch/importer/jit_ir/build_tools/torch_ods_gen.py:178-186 | The hook text for a class determines the argument count and return count it was rendered with |
| RawEmit.CustomFormatText | python/torch_mlir/dialects/torch/importer/jit_ir/build_tools/torch_ods_gen.py:176-186 | The format section of a fixed-arity operator prints `let hasCustomAssemblyFormat = 1;` and then the `extraClassDefinition` text with the declared counts, both at depth 1 |
| RawEmit.HookTextPrinted | python/torch_mlir/dialects/torch/importer/jit_ir/build_tools/torch_ods_gen.py:178-186 | A successful fixed-arity block prints the `extraClassDefinition` text for its class with the declared argument and return counts, at depth 1 |
| RawEmit.RawEmitOp | python/torch_mlir/dialects/torch/importer/jit_ir/build_tools/torch_ods_gen.py:104-192 | A successful block ends with the closing brace and the blank separator line |
| RawEmit.HeaderPrintedFirst | python/torch_mlir/dialects/torch/importer/jit_ir/build_tools/torch_ods_gen.py:125-134 | The `def` line, the trait line, `]> {`, the summary and `let arguments = (ins` are printed first, whether or not rendering later fails |
| RawEmit.RawEmitOpFailure | python/torch_mlir/dialects/torch/importer/jit_ir/build_tools/torch_ods_gen.py:134-153 | Rendering fails exactly when a type it resolves is unmapped, and the error names an unmapped type. An unmapped argument type stops it right after `let arguments = (ins`. An unmapped return type, with the arguments resolved, stops it right after `let results = (outs`. |
| RawEmit.AssemblyFormatIff | python/torch_mlir/dialects/torch/importer/jit_ir/build_tools/torch_ods_gen.py:155-175 | A rendered block sets `assemblyFormat` exactly when the operator is vararg or varret |
| RawEmit.CustomFormatIff | python/torch_mlir/dialects/torch/importer/jit_ir/build_tools/torch_ods_gen.py:155-177 | A rendered block declares `hasCustomAssemblyFormat` exactly when the operator is neither vararg nor varret |
| RawEmit.HooksCarryDeclaredCounts | python/torch_mlir/dialects/torch/importer/jit_ir/build_tools/torch_ods_gen.py:176-186 | The hook line is present exactly for fixed-arity operators, and every hook line in the block carries the declared argument and return counts |
| RawEmit.MarkersIff | python/torch_mlir/dialects/torch/importer/jit_ir/build_tools/torch_ods_gen.py:187-190 | `hasFolder = 1` appears exactly when `has_folder` is set, and `hasCanonicalizer = 1` exactly when `has_canonicalizer` is set |
| RawEmit.MarkerPlacement | python/torch_mlir/dialects/torch/importer/jit_ir/build_tools/torch_ods_gen.py:155-192 | The format section is followed by the folder marker, then the canonicalizer marker, then `}` and the blank line |
| EmitOps.InferTraits | python/torch_mlir/dialects/torch/importer/jit_ir/build_tools/torch_ods_gen.py:206-214 | The caller's traits come first, unchanged. Then `AllowsTypeRefinement`, then `HasValueSemantics` exactly when the operator has value semantics, then `ReadOnly` exactly when it is read-only, last. |
| EmitOps.TraitsKeepDuplicates | python/torch_mlir/dialects/torch/importer/jit_ir/build_tools/torch_ods_gen.py:206-214 | Each trait occurs as often as it does among the caller's traits and the inferred ones together: nothing is de-duplicated |
| Scenarios.QuantizedLinearDuplicateTrait | python/torch_mlir/dialects/torch/importer/jit_ir/build_tools/torch_ods_gen.py:655-657 | `quantized::linear`, emitted with `traits=["HasValueSemantics"]`, lists that trait first, before `AllowsTypeRefinement`. It lists the trait twice exactly when the registry also judges the operator value-semantic. |
| EmitOps.EmitOp | python/torch_mlir/dialects/torch/importer/jit_ir/build_tools/torch_ods_gen.py:195-220 | The output is `raw_emit_op`'s rendering of this operator with the inferred trait list and the given folder and canonicalizer flags. It opens with the operator's own `def` line, the trait line and its summary. Emission fails exactly when a resolved type is unmapped. A successful block holds the operator's own `assemblyFormat` line exactly when the operator is vararg or varret. It holds `hasCustomAssemblyFormat` and the hook line with the declared counts exactly when the operator is neither. Its folder and canonicalizer markers follow their flags. |
| RawEmit.RenderFacts | python/torch_mlir/dialects/torch/importer/jit_ir/build_tools/torch_ods_gen.py:125-190 | Every rendering opens with the `def` line, the trait line, `]> {`, the summary and `let arguments = (ins`. It fails exactly on an unmapped resolved type. A successful one has the marker, format and hook facts of `BlockFacts`. |
| RawEmit.BlockFacts | python/torch_mlir/dialects/torch/importer/jit_ir/build_tools/torch_ods_gen.py:155-190 | In one successful block, each marker appears exactly when its flag is set. Some `assemblyFormat` line appears, and the operator's own one appears, exactly for vararg or varret operators. `hasCustomAssemblyFormat` and the hook line with the declared counts appear exactly for the others. |
| Scenarios.ReluBlock | python/torch_mlir/dialects/torch/importer/jit_ir/build_tools/torch_ods_gen.py:245 | Taking the registry to judge `relu` value-semantic and read-only, `relu` succeeds with traits `AllowsTypeRefinement, HasValueSemantics, ReadOnly`. It gets the custom format, hooks with counts 1 and 1, no `assemblyFormat` and no markers. |
| Scenarios.ComplexReturnFails | python/torch_mlir/dialects/torch/importer/jit_ir/build_tools/torch_ods_gen.py:144-152 | A made-up operator returning `Complex` fails naming `Complex`, after eight lines ending in `let results = (outs` |
| EmitOps.Emit | python/torch_mlir/dialects/torch/importer/jit_ir/build_tools/torch_ods_gen.py:224-225 | An unknown key fails before anything is printed. A known key gives exactly what `emit_op` gives for its operator with the same keyword arguments. So it prints the inferred traits, fails exactly when one of its types is unmapped, and on success prints the folder and canonicalizer markers exactly when their flags are set. |
| EmitOps.VariantTriple | python/torch_mlir/dialects/torch/importer/jit_ir/build_tools/torch_ods_gen.py:229-233 | The variant keeps the namespace and appends `_` to the name. It clears the overload when the overload is `functional` and keeps it otherwise. |
| EmitOps.VariantTripleCollisions | python/torch_mlir/dialects/torch/importer/jit_ir/build_tools/torch_ods_gen.py:229-233 | Two different base triples share a variant only when they differ just in the overload, one being `functional` and the other empty |
| EmitOps.VariantTraitIff | python/torch_mlir/dialects/torch/importer/jit_ir/build_tools/torch_ods_gen.py:232-235 | The variant carries `IsTrailingUnderscoreInplaceVariant` exactly when the base overload is not `functional` |
| EmitOps.EmitWithMutatingVariants | python/torch_mlir/dialects/torch/importer/jit_ir/build_tools/torch_ods_gen.py:227-235 | An unknown key prints nothing. Otherwise the base block is printed first, and a base failure is returned unchanged. A missing variant fails naming its triple, with the base block left in the sink. A found variant's block is exactly `emit_op` of the looked-up operator with the variant options, printed right after the base. It opens with that operator's own `def` line, carries the variant traits and no markers, and succeeds exactly when its types resolve. |
| Scenarios.AddTensorVariant | python/torch_mlir/dialects/torch/importer/jit_ir/build_tools/torch_ods_gen.py:301 | `add.Tensor` with a canonicalizer pairs with `add_.Tensor`. Taking the registry to judge `add_.Tensor` neither value-semantic nor read-only, the variant block opens with `add_.Tensor`'s own `def` line, is emitted with `IsTrailingUnderscoreInplaceVariant, AllowsTypeRefinement`, and has no canonicalizer. |
| Scenarios.AddTensorMissingVariant | python/torch_mlir/dialects/torch/importer/jit_ir/build_tools/torch_ods_gen.py:227-235 | Without `add_.Tensor` in the registry the result is the base block followed by the error naming `(aten, add_, Tensor)` |

## Left out

- The `TextEmitter` itself is left out: its indentation stack and how it
  writes to the file are not modelled. A `print` becomes a line recorded with
  its depth, and `quote` is a parameter of type `string -> string` about which
  nothing is assumed.
- The `Registry` and `JitOperator` classes (`registry.py`) are not part of
  this model. An operator is a record holding what `raw_emit_op` reads from it:
  its key, triple, arguments, returns, the vararg/varret flags, value semantics,
  read-only, and the MLIR op name and C++ class name from `get_mlir_names`.
  `registry[key]` and `get_by_triple` are map lookups, and a failed key lookup
  is modelled as the error `UnknownOperator`.
- The value-semantics and read-only verdicts of the scenario operators are
  taken as given, because they are computed in `registry.py`. The scenario
  lemmas about traits hold for those verdicts only.
- Whether the wire-name to class-name mapping is injective is a property of
  `get_mlir_names` in the registry, which is not part of this model.
- The catalog body of `emit_ops` (the hundreds of `emit` calls) is left out,
  except for the operators worked through in `scenarios.dfy`.
- `main`, argument parsing, `importlib`, logging, the license banner,
  `_get_main_module_name` and file output are I/O and are left out.
- `dump_registered_ops` is a debugging dump of registry contents and is left
  out.
- `emit_op` mutates the caller's `traits` list in place. This is not
  observable in the emitted text, because every catalog call passes a fresh
  list, so the model treats the argument as a value.
- That repeated trait inference gives the same list needs no lemma: in the
  model it is a pure function.
- RawEmit.RawEmitOp: its own contract states only the closing lines. The
  layout, failure and format facts about its result are stated by the RawEmit
  lemmas listed above.
- RawEmit.HookTextPrinted: it proves that a fixed-arity block prints the hook
  text. It does not prove that no other printed line has the same text. That
  a vararg or varret block carries no hook line is stated on the line
  structure, by `HooksCarryDeclaredCounts`, not on the printed text.

=== FILE: emit_ops.dfy ===
/**
 * `emit_op` and the `emit` / `emit_with_mutating_variants` helpers of
 * `emit_ops`: trait inference, registry lookup, and the pairing of a
 * value-semantics operator with its in-place variant.
 */
module EmitOps {
  import opened Wrappers
  import opened Text
  import opened Operators
  import opened Sink
  import opened RawEmit

  /** The keyword arguments of `emit_op`: `traits`, `has_folder`, `has_canonicalizer`. */
  datatype EmitOptions = EmitOptions(traits: Option<seq<string>>, hasFolder: bool, hasCanonicalizer: bool)

  /** `emit_op`'s defaults: no traits, no folder, no canonicalizer. */
  const Defaults: EmitOptions := EmitOptions(None, false, false)

  const TypeRefinementTrait: string := "AllowsTypeRefinement"
  const ValueSemanticsTrait: string := "HasValueSemantics"
  const ReadOnlyTrait: string := "ReadOnly"
  const InplaceVariantTrait: string := "IsTrailingUnderscoreInplaceVariant"

  /** The traits `emit_op` derives from the operator itself, in the order it appends them. */
  function InferredTraits(op: Operator): seq<string>
  {
    [TypeRefinementTrait]
      + (if op.hasValueSemantics then [ValueSemanticsTrait] else [])
      + (if op.isReadonly then [ReadOnlyTrait] else [])
  }

  /**
   * The trait list `emit_op` hands to `raw_emit_op`: the caller's traits in
   * their order, then the inferred ones. Nothing is de-duplicated.
   */
  function InferTraits(op: Operator, traits: Option<seq<string>>): (r: seq<string>)
    ensures var x := traits.GetOr([]);
      && |r| == |x| + 1 + (if op.hasValueSemantics then 1 else 0) + (if op.isReadonly then 1 else 0)
      && r[..|x|] == x
      && r[|x|] == TypeRefinementTrait
      && (op.hasValueSemantics ==> r[|x| + 1] == ValueSemanticsTrait)
      && (op.isReadonly ==> r[|r| - 1] == ReadOnlyTrait)
      && (ValueSemanticsTrait in r[|x|..] <==> op.hasValueSemantics)
      && (ReadOnlyTrait in r[|x|..] <==> op.isReadonly)
  {
    var x := traits.GetOr([]);
    var r := x + InferredTraits(op);
    assert r[|x|..] == InferredTraits(op);
    r
  }

  /** Every occurrence of a trait, the caller's and the inferred ones, is kept. */
  lemma TraitsKeepDuplicates(op: Operator, x: seq<string>, t: string)
    ensures multiset(InferTraits(op, Some(x)))[t] == multiset(x)[t] + multiset(InferredTraits(op))[t]
  {
    assert InferTraits(op, Some(x)) == x + InferredTraits(op);
  }

  /**
   * `emit_op`: renders the operator with the inferred trait list and the
   * folder and canonicalizer flags it was given. The header, trait list
   * included, is printed whether or not a type later fails to resolve.
   */
  function EmitOp(op: Operator, quote: string -> string, opts: EmitOptions): (r: Output)
    ensures r == RawEmitOp(op, quote, InferTraits(op, opts.traits), opts.hasFolder, opts.hasCanonicalizer)
    ensures Header(op, quote, InferTraits(op, opts.traits)) <= r.lines
    ensures |r.lines| >= 5 && r.lines[0] == DefLine(op, quote) && r.lines[3] == SummaryLine(op, quote)
    ensures r.lines[1] == TraitLine(InferTraits(op, opts.traits))
    ensures r.failure.None? <==> Resolvable(op)
    ensures r.failure.None? ==> (FolderLine in r.lines <==> opts.hasFolder)
    ensures r.failure.None? ==> (CanonicalizerLine in r.lines <==> opts.hasCanonicalizer)
    ensures r.failure.None? ==> (AssemblyFormatLine(op, quote) in r.lines <==> op.isVararg || op.isVarret)
    ensures r.failure.None? ==> (CustomFormatLine in r.lines <==> !(op.isVararg || op.isVarret))
    ensures r.failure.None? ==>
      (HookLine(op.cppClassName, |op.arguments|, |op.rets|) in r.lines <==> !(op.isVararg || op.isVarret))
  {
    var traits := InferTraits(op, opts.traits);
    RenderFacts(op, quote, traits, opts.hasFolder, opts.hasCanonicalizer);
    RawEmitOp(op, quote, traits, opts.hasFolder, opts.hasCanonicalizer)
  }

  /**
   * `emit(key, **kwargs)`: look the operator up by key and render it, passing
   * every keyword argument on to `emit_op`.
   */
  function Emit(reg: Registry, key: string, quote: string -> string, opts: EmitOptions): (r: Output)
    ensures key !in reg.byKey ==> r == Output([], Some(UnknownOperator(key)))
    ensures key in reg.byKey ==> r == EmitOp(reg.byKey[key], quote, opts)
    ensures key in reg.byKey ==>
      && |r.lines| >= 5 && r.lines[1] == TraitLine(InferTraits(reg.byKey[key], opts.traits))
      && (r.failure.None? <==> Resolvable(reg.byKey[key]))
      && (r.failure.None? ==> (FolderLine in r.lines <==> opts.hasFolder))
      && (r.failure.None? ==> (CanonicalizerLine in r.lines <==> opts.hasCanonicalizer))
  {
    match LookupKey(reg, key)
    case None => Output([], Some(UnknownOperator(key)))
    case Some(op) => EmitOp(op, quote, opts)
  }

  /** The overload tag whose in-place variant drops the overload altogether. */
  const FunctionalOverload: string := "functional"

  /** The triple of the in-place variant: trailing underscore, `functional` overload cleared. */
  function VariantTriple(t: Triple): (v: Triple)
    ensures v.ns == t.ns && v.name == t.name + "_"
    ensures t.overload == FunctionalOverload ==> v.overload == ""
    ensures t.overload != FunctionalOverload ==> v.overload == t.overload
  {
    Triple(t.ns, t.name + "_", if t.overload == FunctionalOverload then "" else t.overload)
  }

  /**
   * Two distinct base triples share a variant only when they differ just in
   * the overload, one being `functional` and the other empty.
   */
  lemma VariantTripleCollisions(t1: Triple, t2: Triple)
    requires t1 != t2 && VariantTriple(t1) == VariantTriple(t2)
    ensures t1.ns == t2.ns && t1.name == t2.name
    ensures (t1.overload == FunctionalOverload && t2.overload == "")
         || (t1.overload == "" && t2.overload == FunctionalOverload)
  {
    assert t1.name == (t1.name + "_")[..|t1.name|];
    assert t2.name == (t2.name + "_")[..|t2.name|];
  }

  /** The traits the in-place variant is emitted with. */
  function VariantTraits(t: Triple): seq<string>
  {
    if t.overload == FunctionalOverload then [] else [InplaceVariantTrait]
  }

  /**
   * The variant's trait list carries the in-place marker exactly when the
   * base overload is not `functional`.
   */
  lemma VariantTraitIff(v: Operator, t: Triple)
    ensures InplaceVariantTrait in InferTraits(v, Some(VariantTraits(t))) <==> t.overload != FunctionalOverload
  {
    var r := InferTraits(v, Some(VariantTraits(t)));
    assert r == VariantTraits(t) + InferredTraits(v);
  }

  /** The options the in-place variant is emitted with: no folder, no canonicalizer. */
  function VariantOptions(t: Triple): EmitOptions
  {
    EmitOptions(Some(VariantTraits(t)), false, false)
  }

  /**
   * `emit_with_mutating_variants`: emit the base operator, then look up and
   * emit its in-place variant. The base block is printed before the lookup,
   * so a missing variant leaves it in the sink.
   */
  function EmitWithMutatingVariants(reg: Registry, key: string, quote: string -> string,
                                    opts: EmitOptions): (r: Output)
    ensures key !in reg.byKey ==> r == Output([], Some(UnknownOperator(key)))
    ensures key in reg.byKey ==>
      var base := EmitOp(reg.byKey[key], quote, opts);
      var vt := VariantTriple(reg.byKey[key].triple);
      && base.lines <= r.lines
      && (base.failure.Some? ==> r == base)
      && (base.failure.None? && vt !in reg.byTriple ==>
            r == Output(base.lines, Some(UnresolvedVariant(vt))))
      && (base.failure.None? && vt in reg.byTriple ==>
            && |r.lines| >= |base.lines| + 5
            && r.lines[|base.lines| + 1]
               == TraitLine(InferTraits(reg.byTriple[vt], Some(VariantTraits(reg.byKey[key].triple))))
            && (r.failure.None? <==> Resolvable(reg.byTriple[vt]))
            && (r.failure.None? ==>
                  FolderLine !in r.lines[|base.lines|..] && CanonicalizerLine !in r.lines[|base.lines|..]))
    ensures key in reg.byKey ==>
      var op := reg.byKey[key];
      var vt := VariantTriple(op.triple);
      EmitOp(op, quote, opts).failure.None? && vt in reg.byTriple ==>
        var variant := EmitOp(reg.byTriple[vt], quote, VariantOptions(op.triple));
        && r == Output(EmitOp(op, quote, opts).lines + variant.lines, variant.failure)
        && r.lines[|EmitOp(op, quote, opts).lines|] == DefLine(reg.byTriple[vt], quote)
  {
    match LookupKey(reg, key)
    case None => Output([], Some(UnknownOperator(key)))
    case Some(op) =>
      var base := EmitOp(op, quote, opts);
      if base.failure.Some? then base
      else
        var vt := VariantTriple(op.triple);
        match LookupTriple(reg, vt)
        case None => Output(base.lines, Some(UnresolvedVariant(vt)))
        case Some(v) =>
          var variant := EmitOp(v, quote, VariantOptions(op.triple));
          PrefixOfConcat(base.lines, variant.lines);
          SuffixOfConcat(base.lines, variant.lines);
          Output(base.lines + variant.lines, variant.failure)
  }
}

=== FILE: ods_types.dfy ===
/** The table from schema type spellings to ODS type predicates, and its lookup. */
module OdsTypes {
  import opened Wrappers
  import opened Operators

  /** `TORCH_TYPE_TO_ODS_TYPE`: the closed set of type spellings the generator knows. */
  const Table: map<string, string> := map[
    "Tensor" := "AnyTorchTensorType",
    "Tensor?" := "AnyTorchOptionalTensorType",
    "Tensor?[]" := "AnyTorchListOfOptionalTensorType",
    "Tensor[]" := "AnyTorchListOfTensorType",
    "Scalar" := "AnyTorchScalarType",
    "Scalar?" := "AnyTorchOptionalScalarType",
    "int" := "Torch_IntType",
    "int[]" := "AnyTorchListOfTorchIntType",
    "int?" := "AnyTorchOptionalIntType",
    "int[]?" := "AnyTorchOptionalListOfTorchIntType",
    "bool" := "Torch_BoolType",
    "bool[]" := "AnyTorchListOfTorchBoolType",
    "bool?" := "AnyTorchOptionalBoolType",
    "float" := "Torch_FloatType",
    "float?" := "AnyTorchOptionalFloatType",
    "float[]" := "AnyTorchListOfTorchFloatType",
    "float[]?" := "AnyTorchOptionalListOfTorchFloatType",
    "t[]" := "AnyTorchListType",
    "t" := "AnyTorchType",
    "t1" := "AnyTorchType",
    "t2" := "AnyTorchType",
    "Any" := "AnyTorchType",
    "Device" := "Torch_DeviceType",
    "Device?" := "AnyTorchOptionalDeviceType",
    "Generator" := "Torch_GeneratorType",
    "Generator?" := "AnyTorchOptionalGeneratorType",
    "str" := "Torch_StringType",
    "str?" := "AnyTorchOptionalStringType",
    "str[]" := "AnyTorchListOfTorchStringType",
    "Dict" := "Torch_DictType",
    "__torch__.torch.classes.quantized.LinearPackedParamsBase" := "Torch_LinearParamsType"
  ]

  /** Every parameterised dictionary spelling starts with this. */
  const DictPrefix: string := "Dict("

  /** Every predicate in the table belongs to the Torch dialect's type family. */
  predicate IsTorchPredicate(p: string)
  {
    "AnyTorch" <= p || "Torch_" <= p
  }

  /**
   * `get_ods_type`: `Dict(...)` spellings all collapse to the generic
   * dictionary predicate; any other spelling must be a key of the table.
   */
  function GetOdsType(t: string): (r: Result<string, EmitError>)
    ensures DictPrefix <= t ==> r == Success("Torch_DictType")
    ensures !(DictPrefix <= t) && t in Table ==> r == Success(Table[t])
    ensures !(DictPrefix <= t) && t !in Table ==> r == Failure(UnmappedType(t))
    ensures r.Success? ==> r.value in Table.Values && IsTorchPredicate(r.value)
  {
    var key := if DictPrefix <= t then "Dict" else t;
    if key in Table then Success(Table[key]) else Failure(UnmappedType(key))
  }
}

=== FILE: operators.dfy ===
/**
 * The data the emission engine consumes: one operator schema from the JIT
 * operator registry, the registry's two lookups, and the errors that abort a run.
 */
module Operators {
  import opened Wrappers

  /** `(namespace, unqualified name, overload)`, e.g. `("aten", "add", "Tensor")`. */
  datatype Triple = Triple(ns: string, name: string, overload: string)

  /**
   * One declared argument or return: its schema name and schema type spelling.
   * A missing return name is the empty string: the generator tests the name
   * with Python's `or`, under which `None` and `""` behave alike.
   */
  datatype Param = Param(name: string, typ: string)

  /**
   * A registered operator, immutable for the whole emission. `opName` and
   * `cppClassName` are the pair the registry's `get_mlir_names` returns;
   * `hasValueSemantics` and `isReadonly` are the registry's own verdicts.
   */
  datatype Operator = Operator(
    uniqueKey: string,
    triple: Triple,
    arguments: seq<Param>,
    rets: seq<Param>,
    isVararg: bool,
    isVarret: bool,
    hasValueSemantics: bool,
    isReadonly: bool,
    opName: string,
    cppClassName: string)

  /** The registry, seen through its two lookups: `registry[key]` and `get_by_triple`. */
  datatype Registry = Registry(byKey: map<string, Operator>, byTriple: map<Triple, Operator>)

  /** The conditions that abort an emission run. */
  datatype EmitError =
    | UnmappedType(typeName: string)      // a schema type missing from the predicate table
    | UnknownOperator(key: string)        // `registry[key]` found nothing
    | UnresolvedVariant(triple: Triple)   // `get_by_triple` found no in-place variant

  /** `registry[key]`. */
  function LookupKey(reg: Registry, key: string): (r: Option<Operator>)
    ensures r.Some? <==> key in reg.byKey
    ensures r.Some? ==> r.value == reg.byKey[key]
  {
    if key in reg.byKey then Some(reg.byKey[key]) else None
  }

  /** `registry.get_by_triple(t)`. */
  function LookupTriple(reg: Registry, t: Triple): (r: Option<Operator>)
    ensures r.Some? <==> t in reg.byTriple
    ensures r.Some? ==> r.value == reg.byTriple[t]
  {
    if t in reg.byTriple then Some(reg.byTriple[t]) else None
  }
}

=== FILE: raw_emit.dfy ===
/**
 * `raw_emit_op`: renders one operator as a TableGen `def` block, one line per
 * `print` call. The `extraClassDefinition` line is kept by the values it is
 * rendered from; `LineText` spells every line out as it is printed.
 */
module RawEmit {
  import opened Wrappers
  import opened Text
  import opened Operators
  import opened OdsTypes
  import opened Sink

  // ---------------------------------------------------------------- names

  /** `generic_result_name(i)` inside an operator with `count` returns. */
  function GenericResultName(count: nat, i: nat): string
  {
    "result" + (if count > 1 then NatToString(i) else "")
  }

  /** The name the `outs` clause and the assembly format give the `i`-th return. */
  function ResultName(rets: seq<Param>, i: nat): (n: string)
    requires i < |rets|
    ensures rets[i].name != "" ==> n == rets[i].name
    ensures rets[i].name == "" && |rets| <= 1 ==> n == "result"
    ensures rets[i].name == "" && |rets| > 1 ==> n == "result" + NatToString(i)
  {
    if rets[i].name != "" then rets[i].name else GenericResultName(|rets|, i)
  }

  /** Among several returns, an unnamed first return is called `result0`. */
  lemma FirstSynthesizedName(rets: seq<Param>)
    requires |rets| > 1 && rets[0].name == ""
    ensures ResultName(rets, 0) == "result0"
  {
    assert NatToString(0) == "0";
  }

  /** Two unnamed returns of one operator never receive the same synthesized name. */
  lemma SynthesizedNamesDistinct(rets: seq<Param>, i: nat, j: nat)
    requires i < |rets| && j < |rets| && i != j
    requires rets[i].name == "" && rets[j].name == ""
    ensures ResultName(rets, i) != ResultName(rets, j)
  {
    if ResultName(rets, i) == ResultName(rets, j) {
      StripPrefix("result", NatToString(i), NatToString(j));
      NatToStringInjective(i, j);
    }
  }

  /** The declared type spellings, in order. */
  function Types(ps: seq<Param>): (ts: seq<string>)
    ensures |ts| == |ps|
    ensures forall i :: 0 <= i < |ps| ==> ts[i] == ps[i].typ
  {
    seq(|ps|, i requires 0 <= i < |ps| => ps[i].typ)
  }

  /** The declared names, in order. */
  function Names(ps: seq<Param>): (ns: seq<string>)
    ensures |ns| == |ps|
    ensures forall i :: 0 <= i < |ps| ==> ns[i] == ps[i].name
  {
    seq(|ps|, i requires 0 <= i < |ps| => ps[i].name)
  }

  function ResultNames(rets: seq<Param>): (ns: seq<string>)
    ensures |ns| == |rets|
    ensures forall i :: 0 <= i < |rets| ==> ns[i] == ResultName(rets, i)
  {
    seq(|rets|, i requires 0 <= i < |rets| => ResultName(rets, i))
  }

  /** Every spelling in `ts` has an entry in the predicate table. */
  predicate AllMapped(ts: seq<string>)
  {
    forall i :: 0 <= i < |ts| ==> GetOdsType(ts[i]).Success?
  }

  // ---------------------------------------------------------------- ins / outs

  /**
   * The `pred:$name` entries of a non-variadic `ins` or `outs` clause: types are
   * resolved in declared order and the first unmapped one raises.
   */
  function TypedEntries(typs: seq<string>, names: seq<string>): (r: Result<seq<string>, EmitError>)
    requires |typs| == |names|
    ensures r.Success? ==> |r.value| == |typs|
    decreases |typs|
  {
    if |typs| == 0 then Success([])
    else
      match GetOdsType(typs[0])
      case Failure(e) => Failure(e)
      case Success(p) =>
        match TypedEntries(typs[1..], names[1..])
        case Failure(e) => Failure(e)
        case Success(rest) => Success([p + ":$" + names[0]] + rest)
  }

  /** The entries are built exactly when every type is mapped. */
  lemma {:induction false} TypedEntriesSucceedIff(typs: seq<string>, names: seq<string>)
    requires |typs| == |names|
    ensures TypedEntries(typs, names).Success? <==> AllMapped(typs)
    decreases |typs|
  {
    if |typs| > 0 {
      TypedEntriesSucceedIff(typs[1..], names[1..]);
      assert forall i :: 1 <= i < |typs| ==> typs[i] == typs[1..][i - 1];
    }
  }

  /** Each built entry pairs the predicate of its own type with its own name. */
  lemma {:induction false} TypedEntriesContents(typs: seq<string>, names: seq<string>)
    requires |typs| == |names|
    ensures TypedEntries(typs, names).Success? ==> forall i :: 0 <= i < |typs| ==>
      && GetOdsType(typs[i]).Success?
      && TypedEntries(typs, names).value[i] == GetOdsType(typs[i]).value + ":$" + names[i]
    decreases |typs|
  {
    if |typs| > 0 && TypedEntries(typs, names).Success? {
      TypedEntriesContents(typs[1..], names[1..]);
      assert forall i :: 1 <= i < |typs| ==> typs[i] == typs[1..][i - 1] && names[i] == names[1..][i - 1];
    }
  }

  /** A failure names the first unmapped type: everything before it is mapped. */
  lemma {:induction false} TypedEntriesFirstFailure(typs: seq<string>, names: seq<string>)
    requires |typs| == |names|
    ensures TypedEntries(typs, names).Failure? ==>
      exists k :: 0 <= k < |typs| && TypedEntries(typs, names).error == UnmappedType(typs[k])
        && GetOdsType(typs[k]).Failure? && AllMapped(typs[..k])
    decreases |typs|
  {
    if |typs| > 0 {
      if GetOdsType(typs[0]).Failure? {
        assert AllMapped(typs[..0]);
      } else if TypedEntries(typs[1..], names[1..]).Failure? {
        TypedEntriesFirstFailure(typs[1..], names[1..]);
        var k :| 0 <= k < |typs| - 1 && TypedEntries(typs[1..], names[1..]).error == UnmappedType(typs[1..][k])
          && GetOdsType(typs[1..][k]).Failure? && AllMapped(typs[1..][..k]);
        var pre, tail := typs[..k + 1], typs[1..][..k];
        forall i | 0 <= i < |pre|
          ensures GetOdsType(pre[i]).Success?
        {
          if i > 0 {
            assert pre[i] == tail[i - 1];
          }
        }
      }
    }
  }

  /** The entries of the `ins` clause. */
  function InsEntries(op: Operator): (r: Result<seq<string>, EmitError>)
    ensures op.isVararg ==> r == Success(["Variadic<AnyTorchType>:$operands"])
    ensures !op.isVararg ==> (r.Success? <==> AllMapped(Types(op.arguments)))
    ensures !op.isVararg && r.Success? ==>
      && |r.value| == |op.arguments|
      && forall i :: 0 <= i < |op.arguments| ==>
           r.value[i] == GetOdsType(op.arguments[i].typ).value + ":$" + op.arguments[i].name
    ensures r.Failure? ==>
      exists k :: 0 <= k < |op.arguments|
        && r.error == UnmappedType(op.arguments[k].typ)
        && GetOdsType(op.arguments[k].typ).Failure?
        && AllMapped(Types(op.arguments)[..k])
  {
    if op.isVararg then Success(["Variadic<AnyTorchType>:$operands"])
    else
      TypedEntriesSucceedIff(Types(op.arguments), Names(op.arguments));
      TypedEntriesContents(Types(op.arguments), Names(op.arguments));
      TypedEntriesFirstFailure(Types(op.arguments), Names(op.arguments));
      TypedEntries(Types(op.arguments), Names(op.arguments))
  }

  /** The entries of the `outs` clause, with synthesized names for unnamed returns. */
  function OutsEntries(op: Operator): (r: Result<seq<string>, EmitError>)
    ensures op.isVarret ==> r == Success(["Variadic<AnyTorchType>:$results"])
    ensures !op.isVarret ==> (r.Success? <==> AllMapped(Types(op.rets)))
    ensures !op.isVarret && r.Success? ==>
      && |r.value| == |op.rets|
      && forall i :: 0 <= i < |op.rets| ==>
           r.value[i] == GetOdsType(op.rets[i].typ).value + ":$" + ResultName(op.rets, i)
    ensures r.Failure? ==>
      exists k :: 0 <= k < |op.rets|
        && r.error == UnmappedType(op.rets[k].typ)
        && GetOdsType(op.rets[k].typ).Failure?
        && AllMapped(Types(op.rets)[..k])
  {
    if op.isVarret then Success(["Variadic<AnyTorchType>:$results"])
    else
      TypedEntriesSucceedIff(Types(op.rets), ResultNames(op.rets));
      TypedEntriesContents(Types(op.rets), ResultNames(op.rets));
      TypedEntriesFirstFailure(Types(op.rets), ResultNames(op.rets));
      TypedEntries(Types(op.rets), ResultNames(op.rets))
  }

  // ---------------------------------------------------------------- assembly format

  /** `qualified(type($name))`. */
  function Qualified(name: string): (s: string)
    ensures s != ""
  {
    "qualified(type($" + name + "))"
  }

  /** The operand part of a vararg operator's format. */
  const VarargOperands: string := "`(` $operands `)`"

  function OperandsPart(op: Operator): string
  {
    if op.isVararg then VarargOperands
    else Join(seq(|op.arguments|, i requires 0 <= i < |op.arguments| => "$" + op.arguments[i].name), " `,` ")
  }

  function OperandTypesPart(op: Operator): string
  {
    if op.isVararg then Qualified("operands")
    else Join(seq(|op.arguments|, i requires 0 <= i < |op.arguments| => Qualified(op.arguments[i].name)), " `,` ")
  }

  function ResultTypesPart(op: Operator): string
  {
    if op.isVarret then Qualified("results")
    else Join(seq(|op.rets|, i requires 0 <= i < |op.rets| => Qualified(ResultName(op.rets, i))), " `,` ")
  }

  /** The `->` separator, present only between two non-empty type clauses. */
  function Arrow(op: Operator): string
  {
    if OperandTypesPart(op) != "" && ResultTypesPart(op) != "" then " `->` " else ""
  }

  /** The `assemblyFormat` string of a variadic operator. */
  function AssemblyFormat(op: Operator): (f: string)
    ensures Contains(f, " attr-dict `:` ")
    ensures OperandsPart(op) + " attr-dict `:` " <= f
    ensures f[|OperandsPart(op) + " attr-dict `:` "|..] == OperandTypesPart(op) + Arrow(op) + ResultTypesPart(op)
  {
    var rest := OperandTypesPart(op) + Arrow(op) + ResultTypesPart(op);
    ContainsMiddle(OperandsPart(op), " attr-dict `:` ", rest);
    PrefixOfConcat(OperandsPart(op) + " attr-dict `:` ", rest);
    SuffixOfConcat(OperandsPart(op) + " attr-dict `:` ", rest);
    OperandsPart(op) + " attr-dict `:` " + rest
  }

  /**
   * A vararg operator's format names the whole operand group, in parentheses,
   * and always has an operand-type clause.
   */
  lemma VarargFormat(op: Operator)
    requires op.isVararg
    ensures VarargOperands + " attr-dict `:` " + Qualified("operands") <= AssemblyFormat(op)
    ensures OperandTypesPart(op) != ""
  {
    PrefixOfConcat(VarargOperands + " attr-dict `:` " + Qualified("operands"), Arrow(op) + ResultTypesPart(op));
  }

  /** The operand-type clause is empty exactly for a non-vararg operator without arguments. */
  lemma OperandTypesEmptyIff(op: Operator)
    ensures OperandTypesPart(op) == "" <==> !op.isVararg && |op.arguments| == 0
  {
    if !op.isVararg && |op.arguments| > 0 {
      var xs := seq(|op.arguments|, i requires 0 <= i < |op.arguments| => Qualified(op.arguments[i].name));
      assert xs[0] != "";
    }
  }

  /** The result-type clause is empty exactly for a non-varret operator without returns. */
  lemma ResultTypesEmptyIff(op: Operator)
    ensures ResultTypesPart(op) == "" <==> !op.isVarret && |op.rets| == 0
  {
    if !op.isVarret && |op.rets| > 0 {
      var xs := seq(|op.rets|, i requires 0 <= i < |op.rets| => Qualified(ResultName(op.rets, i)));
      assert xs[0] != "";
    }
  }

  /**
   * The format has a `->` exactly when there is something on both sides of it:
   * operand types (vararg, or at least one argument) and result types (varret,
   * or at least one return).
   */
  lemma ArrowIff(op: Operator)
    ensures Arrow(op) == " `->` " <==> (op.isVararg || |op.arguments| > 0) && (op.isVarret || |op.rets| > 0)
    ensures Arrow(op) == "" <==> !((op.isVararg || |op.arguments| > 0) && (op.isVarret || |op.rets| > 0))
  {
    OperandTypesEmptyIff(op);
    ResultTypesEmptyIff(op);
  }

  // ---------------------------------------------------------------- custom format hooks

  function HookPrefix(cpp: string): string
  {
    "let extraClassDefinition = [{\n  ParseResult " + cpp
      + "::parse(OpAsmParser &parser, OperationState &result) {\n    return parseDefaultTorchOp(parser, result, "
  }

  function HookMiddle(cpp: string): string
  {
    ");\n  }\n  void " + cpp + "::print(OpAsmPrinter &printer) {\n    printDefaultTorchOp(printer, *this, "
  }

  const HookEnd: string := ");\n  }\n}];\n"

  /**
   * The `extraClassDefinition` of a fixed-arity operator: parse and print hooks
   * that both pass the declared argument count and return count.
   */
  function ExtraClassDefinition(cpp: string, nargs: nat, nrets: nat): string
  {
    var counts := NatToString(nargs) + ", " + NatToString(nrets);
    HookPrefix(cpp) + counts + HookMiddle(cpp) + counts + HookEnd
  }

  /** The hook text read from its start: prefix, first count, separator, second count, then the rest. */
  lemma HookTextSplit<T>(p: seq<T>, a: seq<T>, s: seq<T>, b: seq<T>, m: seq<T>, e: seq<T>)
    ensures p + (a + s + b) + m + (a + s + b) + e == p + (a + (s + (b + (m + (a + s + b) + e))))
  {
  }

  /**
   * Two counts printed as `a, b` between a common prefix and a common
   * remainder that starts with a non-digit can be read back.
   */
  lemma CountsReadBack(p: string, m: string, e: string, a1: nat, b1: nat, a2: nat, b2: nat)
    requires |m| > 0 && !IsDigit(m[0])
    requires var c1, c2 := NatToString(a1) + ", " + NatToString(b1), NatToString(a2) + ", " + NatToString(b2);
      p + c1 + m + c1 + e == p + c2 + m + c2 + e
    ensures a1 == a2 && b1 == b2
  {
    DigitPairsReadBack(p, m, e, NatToString(a1), NatToString(b1), NatToString(a2), NatToString(b2));
    NatToStringInjective(a1, a2);
    NatToStringInjective(b1, b2);
  }

  /** Two digit strings printed as `x, y` in the same surroundings are the same two strings. */
  lemma DigitPairsReadBack(p: string, m: string, e: string, x1: string, y1: string, x2: string, y2: string)
    requires |m| > 0 && !IsDigit(m[0])
    requires AllDigits(x1) && AllDigits(y1) && AllDigits(x2) && AllDigits(y2)
    requires var c1, c2 := x1 + ", " + y1, x2 + ", " + y2;
      p + c1 + m + c1 + e == p + c2 + m + c2 + e
    ensures x1 == x2 && y1 == y2
  {
    var t1, t2 := m + (x1 + ", " + y1) + e, m + (x2 + ", " + y2) + e;
    HookTextSplit(p, x1, ", ", y1, m, e);
    HookTextSplit(p, x2, ", ", y2, m, e);
    StripPrefix(p, x1 + (", " + (y1 + t1)), x2 + (", " + (y2 + t2)));
    DigitsThenNonDigit(x1, ", " + (y1 + t1), x2, ", " + (y2 + t2));
    StripPrefix(", ", y1 + t1, y2 + t2);
    DigitsThenNonDigit(y1, t1, y2, t2);
  }

  /** The text after the first pair of counts opens with the closing parenthesis of the parse call. */
  lemma HookMiddleStart(cpp: string)
    ensures |HookMiddle(cpp)| > 0 && HookMiddle(cpp)[0] == ')'
  {
  }

  /** The hook text determines the counts it was rendered from. */
  lemma HookCountsDetermined(cpp: string, a1: nat, b1: nat, a2: nat, b2: nat)
    requires ExtraClassDefinition(cpp, a1, b1) == ExtraClassDefinition(cpp, a2, b2)
    ensures a1 == a2 && b1 == b2
  {
    HookMiddleStart(cpp);
    CountsReadBack(HookPrefix(cpp), HookMiddle(cpp), HookEnd, a1, b1, a2, b2);
  }

  // ---------------------------------------------------------------- the block

  /** The `def` line naming the generated class and the wire-format op name. */
  function DefLine(op: Operator, quote: string -> string): Line
  {
    Line(0, "def Torch_" + op.cppClassName + " : Torch_Op<" + quote(op.opName) + ", [")
  }

  /** The trait list, printed as one string joined by `,\n`. */
  function TraitLine(traits: seq<string>): Line
  {
    Line(2, Join(traits, ",\n"))
  }

  function SummaryLine(op: Operator, quote: string -> string): Line
  {
    Line(1, "let summary = " + quote("Generated op for `" + op.uniqueKey + "`") + ";")
  }

  /** What is printed before any type is resolved. */
  function Header(op: Operator, quote: string -> string, traits: seq<string>): seq<Line>
  {
    [DefLine(op, quote), TraitLine(traits), Line(1, "]> {"), SummaryLine(op, quote), Line(1, "let arguments = (ins")]
  }

  const CustomFormatLine: Line := Line(1, "let hasCustomAssemblyFormat = 1;")
  const FolderLine: Line := Line(1, "let hasFolder = 1;")
  const CanonicalizerLine: Line := Line(1, "let hasCanonicalizer = 1;")
  const Closing: seq<Line> := [Line(0, "}"), Line(0, "\n")]

  const AssemblyFormatKey: string := "let assemblyFormat = "

  /** A line that sets `assemblyFormat`. */
  predicate IsAssemblyFormatLine(l: Line)
  {
    l.Line? && l.depth == 1 && AssemblyFormatKey <= l.text
  }

  /** Some line of `lines` sets `assemblyFormat`. */
  predicate HasAssemblyFormat(lines: seq<Line>)
  {
    exists i :: 0 <= i < |lines| && IsAssemblyFormatLine(lines[i])
  }

  function AssemblyFormatLine(op: Operator, quote: string -> string): Line
  {
    Line(1, AssemblyFormatKey + quote(AssemblyFormat(op)) + ";")
  }

  /** The format section: a declarative format for variadic ops, custom hooks otherwise. */
  function FormatLines(op: Operator, quote: string -> string): seq<Line>
  {
    if op.isVararg || op.isVarret then [AssemblyFormatLine(op, quote)]
    else [CustomFormatLine, HookLine(op.cppClassName, |op.arguments|, |op.rets|)]
  }

  function MarkerLines(hasFolder: bool, hasCanonicalizer: bool): seq<Line>
  {
    (if hasFolder then [FolderLine] else []) + (if hasCanonicalizer then [CanonicalizerLine] else [])
  }

  /** Every type `raw_emit_op` resolves has a predicate: argument types unless vararg, return types unless varret. */
  predicate Resolvable(op: Operator)
  {
    (op.isVararg || AllMapped(Types(op.arguments))) && (op.isVarret || AllMapped(Types(op.rets)))
  }

  /**
   * `raw_emit_op`. An unmapped type raises while the `ins` or `outs` clause is
   * being built; the lines printed up to that point stay in the sink.
   */
  function RawEmitOp(op: Operator, quote: string -> string, traits: seq<string>,
                     hasFolder: bool, hasCanonicalizer: bool): (r: Output)
    ensures r.failure.None? ==> |r.lines| >= 2 && r.lines[|r.lines| - 2..] == Closing
  {
    var head := Header(op, quote, traits);
    match InsEntries(op)
    case Failure(e) =>
      Output(head, Some(e))
    case Success(ins) =>
      var mid := head + InsLines(ins);
      match OutsEntries(op)
      case Failure(e) =>
        Output(mid, Some(e))
      case Success(outs) =>
        var body := Body(op, quote, traits, ins, outs);
        var pre := body + FormatLines(op, quote) + MarkerLines(hasFolder, hasCanonicalizer);
        SuffixOfConcat(pre, Closing);
        Output(pre + Closing, None)
  }

  /** The `ins` entries, the end of the `ins` clause and the start of the `outs` clause. */
  function InsLines(ins: seq<string>): seq<Line>
  {
    [Line(2, Join(ins, ",\n")), Line(1, ");"), Line(1, "let results = (outs")]
  }

  /** Everything up to and including the end of the `outs` clause. */
  function Body(op: Operator, quote: string -> string, traits: seq<string>,
                ins: seq<string>, outs: seq<string>): seq<Line>
  {
    Header(op, quote, traits) + InsLines(ins) + [Line(2, Join(outs, ",\n")), Line(1, ");")]
  }

  /**
   * Two `let <key> …` texts whose keys begin differently (in the two letters
   * after `let `) are different, and neither is a prefix of the other.
   */
  lemma DistinctLetKeys(a: string, b: string)
    requires |a| > 5 && |b| > 5 && (a[4] != b[4] || a[5] != b[5])
    ensures a != b && !(a <= b) && !(b <= a)
  {
  }

  /** The `let summary = …` line is neither a marker nor a format line. */
  lemma SummaryLineFacts(op: Operator, quote: string -> string)
    ensures SummaryLine(op, quote) != FolderLine && SummaryLine(op, quote) != CanonicalizerLine
    ensures SummaryLine(op, quote) != CustomFormatLine && !IsAssemblyFormatLine(SummaryLine(op, quote))
  {
    var t := "let summary = " + (quote("Generated op for `" + op.uniqueKey + "`") + ";");
    assert SummaryLine(op, quote).text == t;
    DistinctLetKeys(t, FolderLine.text);
    DistinctLetKeys(t, CanonicalizerLine.text);
    DistinctLetKeys(t, CustomFormatLine.text);
    DistinctLetKeys(t, AssemblyFormatKey);
  }

  /** Every line is a plain printed string that is neither a marker nor a format line. */
  predicate Ordinary(lines: seq<Line>)
  {
    forall i :: 0 <= i < |lines| ==>
      && lines[i].Line? && lines[i] != FolderLine && lines[i] != CanonicalizerLine
      && lines[i] != CustomFormatLine && !IsAssemblyFormatLine(lines[i])
  }

  lemma OrdinaryConcat(a: seq<Line>, b: seq<Line>)
    requires Ordinary(a) && Ordinary(b)
    ensures Ordinary(a + b)
  {
    forall i | 0 <= i < |a + b|
      ensures (a + b)[i] == if i < |a| then a[i] else b[i - |a|]
    {
    }
  }

  lemma HeaderOrdinary(op: Operator, quote: string -> string, traits: seq<string>)
    ensures Ordinary(Header(op, quote, traits))
  {
    SummaryLineFacts(op, quote);
    DistinctLetKeys("let arguments = (ins", AssemblyFormatKey);
  }

  lemma ClausesOrdinary(ins: seq<string>, outs: seq<string>)
    ensures Ordinary(InsLines(ins) + [Line(2, Join(outs, ",\n")), Line(1, ");")])
  {
    DistinctLetKeys("let results = (outs", AssemblyFormatKey);
  }

  /** No line before the format section is a marker or a format line. */
  lemma BodyFacts(op: Operator, quote: string -> string, traits: seq<string>,
                  ins: seq<string>, outs: seq<string>)
    ensures var body := Body(op, quote, traits, ins, outs);
      && FolderLine !in body && CanonicalizerLine !in body
      && CustomFormatLine !in body && !HasAssemblyFormat(body)
      && (forall l :: l in body ==> l.Line?)
  {
    var head := Header(op, quote, traits);
    var rest := InsLines(ins) + [Line(2, Join(outs, ",\n")), Line(1, ");")];
    HeaderOrdinary(op, quote, traits);
    ClausesOrdinary(ins, outs);
    OrdinaryConcat(head, rest);
    assert Body(op, quote, traits, ins, outs) == head + rest;
  }

  /** `assemblyFormat` is set somewhere in a concatenation exactly when it is set in one of its parts. */
  lemma HasAssemblyFormatConcat(a: seq<Line>, b: seq<Line>)
    ensures HasAssemblyFormat(a + b) <==> HasAssemblyFormat(a) || HasAssemblyFormat(b)
  {
    var s := a + b;
    if i :| 0 <= i < |s| && IsAssemblyFormatLine(s[i]) {
      if i < |a| {
        assert s[i] == a[i];
      } else {
        assert s[i] == b[i - |a|];
      }
    }
    if i :| 0 <= i < |a| && IsAssemblyFormatLine(a[i]) {
      assert s[i] == a[i];
    }
    if i :| 0 <= i < |b| && IsAssemblyFormatLine(b[i]) {
      assert s[|a| + i] == b[i];
    }
  }

  /**
   * The `def` line, trait list, summary and the opening of the `ins` clause are
   * printed whatever happens afterwards.
   */
  lemma HeaderPrintedFirst(op: Operator, quote: string -> string, traits: seq<string>,
                           hasFolder: bool, hasCanonicalizer: bool)
    ensures Header(op, quote, traits) <= RawEmitOp(op, quote, traits, hasFolder, hasCanonicalizer).lines
  {
    var head := Header(op, quote, traits);
    if InsEntries(op).Success? {
      var ins := InsEntries(op).value;
      PrefixOfConcat(head, InsLines(ins));
      if OutsEntries(op).Success? {
        var body := Body(op, quote, traits, ins, OutsEntries(op).value);
        var pre := body + FormatLines(op, quote) + MarkerLines(hasFolder, hasCanonicalizer);
        PrefixOfConcat(head + InsLines(ins), [Line(2, Join(OutsEntries(op).value, ",\n")), Line(1, ");")]);
        PrefixOfConcat(body, FormatLines(op, quote));
        PrefixOfConcat(body + FormatLines(op, quote), MarkerLines(hasFolder, hasCanonicalizer));
        PrefixOfConcat(pre, Closing);
      }
    }
  }

  /** A successful rendering is the body, the format section, the markers and the closing brace. */
  lemma SuccessLayout(op: Operator, quote: string -> string, traits: seq<string>,
                      hasFolder: bool, hasCanonicalizer: bool)
    requires RawEmitOp(op, quote, traits, hasFolder, hasCanonicalizer).failure.None?
    ensures InsEntries(op).Success? && OutsEntries(op).Success?
    ensures RawEmitOp(op, quote, traits, hasFolder, hasCanonicalizer).lines
      == Body(op, quote, traits, InsEntries(op).value, OutsEntries(op).value)
         + FormatLines(op, quote) + MarkerLines(hasFolder, hasCanonicalizer) + Closing
  {
  }

  /** A line setting `assemblyFormat` is recognised as one, and is no marker line. */
  lemma AssemblyFormatLineFacts(f: string)
    ensures IsAssemblyFormatLine(Line(1, AssemblyFormatKey + f + ";"))
    ensures Line(1, AssemblyFormatKey + f + ";") != FolderLine
    ensures Line(1, AssemblyFormatKey + f + ";") != CanonicalizerLine
    ensures Line(1, AssemblyFormatKey + f + ";") != CustomFormatLine
  {
    var t := AssemblyFormatKey + f + ";";
    PrefixOfConcat(AssemblyFormatKey, f + ";");
    assert t == AssemblyFormatKey + (f + ";");
    DistinctLetKeys(t, FolderLine.text);
    DistinctLetKeys(t, CanonicalizerLine.text);
    DistinctLetKeys(t, CustomFormatLine.text);
  }

  /** The format section holds no marker line. */
  lemma NoMarkerInFormat(op: Operator, quote: string -> string)
    ensures FolderLine !in FormatLines(op, quote)
    ensures CanonicalizerLine !in FormatLines(op, quote)
  {
    if op.isVararg || op.isVarret {
      AssemblyFormatLineFacts(quote(AssemblyFormat(op)));
    } else {
    }
  }

  /** The format section declares `hasCustomAssemblyFormat` exactly for fixed-arity operators. */
  lemma CustomLineInFormatIff(op: Operator, quote: string -> string)
    ensures CustomFormatLine in FormatLines(op, quote) <==> !(op.isVararg || op.isVarret)
  {
    if op.isVararg || op.isVarret {
      AssemblyFormatLineFacts(quote(AssemblyFormat(op)));
    }
  }

  /** The format section holds an `assemblyFormat` line exactly for variadic operators. */
  lemma AssemblyLineInFormatIff(op: Operator, quote: string -> string)
    ensures HasAssemblyFormat(FormatLines(op, quote)) <==> op.isVararg || op.isVarret
  {
    var fl := FormatLines(op, quote);
    if op.isVararg || op.isVarret {
      AssemblyFormatLineFacts(quote(AssemblyFormat(op)));
      assert IsAssemblyFormatLine(fl[0]);
    } else {
      DistinctLetKeys(CustomFormatLine.text, AssemblyFormatKey);
      assert !IsAssemblyFormatLine(fl[0]);
      assert !IsAssemblyFormatLine(fl[1]);
    }
  }

  /** The marker lines are exactly the ones their flags ask for, and none of them is a format line. */
  lemma MarkerLinesFacts(hasFolder: bool, hasCanonicalizer: bool)
    ensures FolderLine in MarkerLines(hasFolder, hasCanonicalizer) <==> hasFolder
    ensures CanonicalizerLine in MarkerLines(hasFolder, hasCanonicalizer) <==> hasCanonicalizer
    ensures CustomFormatLine !in MarkerLines(hasFolder, hasCanonicalizer)
    ensures !HasAssemblyFormat(MarkerLines(hasFolder, hasCanonicalizer))
    ensures forall l :: l in MarkerLines(hasFolder, hasCanonicalizer) ==> l.Line?
  {
    var ml := MarkerLines(hasFolder, hasCanonicalizer);
    DistinctLetKeys(FolderLine.text, AssemblyFormatKey);
    DistinctLetKeys(CanonicalizerLine.text, AssemblyFormatKey);
    forall i | 0 <= i < |ml|
      ensures !IsAssemblyFormatLine(ml[i])
    {
      assert ml[i] == FolderLine || ml[i] == CanonicalizerLine;
    }
  }

  /** The closing brace and blank separator are no marker or format lines. */
  lemma ClosingFacts()
    ensures FolderLine !in Closing && CanonicalizerLine !in Closing
    ensures CustomFormatLine !in Closing && !HasAssemblyFormat(Closing)
  {
    assert !IsAssemblyFormatLine(Closing[0]) && !IsAssemblyFormatLine(Closing[1]);
  }

  /** A line absent from every part but one is in the whole exactly when it is in that part. */
  lemma MemberOfPart(x: Line, a: seq<Line>, b: seq<Line>, c: seq<Line>, d: seq<Line>)
    ensures x in a + b + c + d <==> x in a || x in b || x in c || x in d
  {
  }

  /** When every hook line of a concatenation must come from its second part, it is one of that part's. */
  lemma OnlyHookInSecondPart(h: Line, a: seq<Line>, b: seq<Line>, c: seq<Line>, d: seq<Line>)
    requires forall l :: l in a ==> l.Line?
    requires forall l :: l in b && l.HookLine? ==> l == h
    requires forall l :: l in c ==> l.Line?
    requires forall l :: l in d ==> l.Line?
    ensures forall l :: l in a + b + c + d && l.HookLine? ==> l == h
  {
  }

  /**
   * `hasFolder = 1` and `hasCanonicalizer = 1` appear in a rendered block
   * exactly when their own flag is set, independently of each other.
   */
  lemma MarkersIff(op: Operator, quote: string -> string, traits: seq<string>,
                   hasFolder: bool, hasCanonicalizer: bool)
    requires RawEmitOp(op, quote, traits, hasFolder, hasCanonicalizer).failure.None?
    ensures FolderLine in RawEmitOp(op, quote, traits, hasFolder, hasCanonicalizer).lines <==> hasFolder
    ensures CanonicalizerLine in RawEmitOp(op, quote, traits, hasFolder, hasCanonicalizer).lines <==> hasCanonicalizer
  {
    SuccessLayout(op, quote, traits, hasFolder, hasCanonicalizer);
    var body := Body(op, quote, traits, InsEntries(op).value, OutsEntries(op).value);
    var fl := FormatLines(op, quote);
    var ml := MarkerLines(hasFolder, hasCanonicalizer);
    BodyFacts(op, quote, traits, InsEntries(op).value, OutsEntries(op).value);
    NoMarkerInFormat(op, quote);
    MarkerLinesFacts(hasFolder, hasCanonicalizer);
    ClosingFacts();
    MemberOfPart(FolderLine, body, fl, ml, Closing);
    MemberOfPart(CanonicalizerLine, body, fl, ml, Closing);
  }

  /** Where the last three parts of a four-part concatenation lie, counted from its end. */
  lemma SectionSlices<T>(a: seq<T>, b: seq<T>, c: seq<T>, d: seq<T>)
    ensures var s := a + b + c + d;
      && s[|s| - |d| - |c| - |b|..|s| - |d| - |c|] == b
      && s[|s| - |d| - |c|..|s| - |d|] == c
      && s[|s| - |d|..] == d
  {
    var s := a + b + c + d;
    assert s[|a|..|a| + |b|] == b;
    assert s[|a| + |b|..|a| + |b| + |c|] == c;
  }

  /** A rendered block sets `assemblyFormat` exactly when the operator is vararg or varret. */
  lemma AssemblyFormatIff(op: Operator, quote: string -> string, traits: seq<string>,
                          hasFolder: bool, hasCanonicalizer: bool)
    requires RawEmitOp(op, quote, traits, hasFolder, hasCanonicalizer).failure.None?
    ensures HasAssemblyFormat(RawEmitOp(op, quote, traits, hasFolder, hasCanonicalizer).lines)
        <==> op.isVararg || op.isVarret
  {
    SuccessLayout(op, quote, traits, hasFolder, hasCanonicalizer);
    var body := Body(op, quote, traits, InsEntries(op).value, OutsEntries(op).value);
    var fl := FormatLines(op, quote);
    var ml := MarkerLines(hasFolder, hasCanonicalizer);
    BodyFacts(op, quote, traits, InsEntries(op).value, OutsEntries(op).value);
    AssemblyLineInFormatIff(op, quote);
    MarkerLinesFacts(hasFolder, hasCanonicalizer);
    ClosingFacts();
    HasAssemblyFormatConcat(body, fl);
    HasAssemblyFormatConcat(body + fl, ml);
    HasAssemblyFormatConcat(body + fl + ml, Closing);
  }

  /**
   * A rendered block declares `hasCustomAssemblyFormat` exactly when the
   * operator is neither vararg nor varret.
   */
  lemma CustomFormatIff(op: Operator, quote: string -> string, traits: seq<string>,
                        hasFolder: bool, hasCanonicalizer: bool)
    requires RawEmitOp(op, quote, traits, hasFolder, hasCanonicalizer).failure.None?
    ensures CustomFormatLine in RawEmitOp(op, quote, traits, hasFolder, hasCanonicalizer).lines
      <==> !(op.isVararg || op.isVarret)
  {
    SuccessLayout(op, quote, traits, hasFolder, hasCanonicalizer);
    var body := Body(op, quote, traits, InsEntries(op).value, OutsEntries(op).value);
    BodyFacts(op, quote, traits, InsEntries(op).value, OutsEntries(op).value);
    CustomLineInFormatIff(op, quote);
    MarkerLinesFacts(hasFolder, hasCanonicalizer);
    ClosingFacts();
    MemberOfPart(CustomFormatLine, body, FormatLines(op, quote), MarkerLines(hasFolder, hasCanonicalizer), Closing);
  }

  /**
   * A block carries the parse/print hooks exactly when the operator is of
   * fixed arity, and the only hook line it carries is rendered from the
   * declared argument and return counts.
   */
  lemma HooksCarryDeclaredCounts(op: Operator, quote: string -> string, traits: seq<string>,
                                 hasFolder: bool, hasCanonicalizer: bool)
    requires RawEmitOp(op, quote, traits, hasFolder, hasCanonicalizer).failure.None?
    ensures var lines := RawEmitOp(op, quote, traits, hasFolder, hasCanonicalizer).lines;
      var hook := HookLine(op.cppClassName, |op.arguments|, |op.rets|);
      && (hook in lines <==> !(op.isVararg || op.isVarret))
      && (forall l :: l in lines && l.HookLine? ==> l == hook)
  {
    SuccessLayout(op, quote, traits, hasFolder, hasCanonicalizer);
    var body := Body(op, quote, traits, InsEntries(op).value, OutsEntries(op).value);
    var fl := FormatLines(op, quote);
    var ml := MarkerLines(hasFolder, hasCanonicalizer);
    BodyFacts(op, quote, traits, InsEntries(op).value, OutsEntries(op).value);
    MarkerLinesFacts(hasFolder, hasCanonicalizer);
    var hook := HookLine(op.cppClassName, |op.arguments|, |op.rets|);
    MemberOfPart(hook, body, fl, ml, Closing);
    OnlyHookInSecondPart(hook, body, fl, ml, Closing);
  }

  /** The depth and the text one `print` call puts in the output. */
  function LineText(l: Line): (nat, string)
  {
    match l
    case Line(d, t) => (d, t)
    case HookLine(cpp, nargs, nrets) => (1, ExtraClassDefinition(cpp, nargs, nrets))
  }

  /** `f` applied to every element of `s`, in order. */
  function Map<T, U>(f: T -> U, s: seq<T>): (r: seq<U>)
    ensures |r| == |s|
    ensures forall i :: 0 <= i < |s| ==> r[i] == f(s[i])
  {
    seq(|s|, i requires 0 <= i < |s| => f(s[i]))
  }

  /** The lines as printed. */
  function Printed(lines: seq<Line>): seq<(nat, string)>
  {
    Map(LineText, lines)
  }

  /**
   * The format section of a fixed-arity operator prints, at depth 1,
   * `let hasCustomAssemblyFormat = 1;` and then the `extraClassDefinition`
   * text for its class with the declared argument and return counts.
   * `MarkerPlacement` places this section in the block.
   */
  lemma CustomFormatText(op: Operator, quote: string -> string)
    requires !(op.isVararg || op.isVarret)
    ensures var p := Printed(FormatLines(op, quote));
      && |p| == 2
      && p[0] == (1, CustomFormatLine.text)
      && p[1] == (1, ExtraClassDefinition(op.cppClassName, |op.arguments|, |op.rets|))
  {
    FormatPairText(FormatLines(op, quote), op.cppClassName, |op.arguments|, |op.rets|);
  }

  /** The custom-format line and a hook line, as printed. */
  lemma FormatPairText(lines: seq<Line>, cpp: string, nargs: nat, nrets: nat)
    requires lines == [CustomFormatLine, HookLine(cpp, nargs, nrets)]
    ensures |Printed(lines)| == 2
    ensures Printed(lines)[0] == (1, CustomFormatLine.text)
    ensures Printed(lines)[1] == (1, ExtraClassDefinition(cpp, nargs, nrets))
  {
    HookPrinted(cpp, nargs, nrets);
    CustomFormatPrinted();
    assert Printed(lines)[0] == LineText(lines[0]);
    assert Printed(lines)[1] == LineText(lines[1]);
  }

  /** The custom-format line is printed at depth 1 as its own text. */
  lemma CustomFormatPrinted()
    ensures LineText(CustomFormatLine) == (1, CustomFormatLine.text)
  {
  }

  /** A hook line is printed at depth 1 as the text of its values. */
  lemma HookPrinted(cpp: string, nargs: nat, nrets: nat)
    ensures LineText(HookLine(cpp, nargs, nrets)) == (1, ExtraClassDefinition(cpp, nargs, nrets))
  {
  }

  /** What an element of the second part of a four-part concatenation maps to is in the mapped whole. */
  lemma MapSecond<T, U>(f: T -> U, a: seq<T>, b: seq<T>, c: seq<T>, d: seq<T>, x: T)
    requires x in b
    ensures f(x) in Map(f, a + b + c + d)
  {
    var s := a + b + c + d;
    var i :| 0 <= i < |b| && b[i] == x;
    assert s[|a| + i] == x;
    assert Map(f, s)[|a| + i] == f(x);
  }

  /** A printed hook line is the `extraClassDefinition` text of its values, at depth 1. */
  lemma HookLineText(lines: seq<Line>, cpp: string, nargs: nat, nrets: nat)
    requires LineText(HookLine(cpp, nargs, nrets)) in Printed(lines)
    ensures (1, ExtraClassDefinition(cpp, nargs, nrets)) in Printed(lines)
  {
  }

  /** A fixed-arity block prints its hook line. */
  lemma HookLinePrinted(op: Operator, quote: string -> string, traits: seq<string>,
                        hasFolder: bool, hasCanonicalizer: bool)
    requires RawEmitOp(op, quote, traits, hasFolder, hasCanonicalizer).failure.None?
    requires !(op.isVararg || op.isVarret)
    ensures LineText(HookLine(op.cppClassName, |op.arguments|, |op.rets|))
      in Printed(RawEmitOp(op, quote, traits, hasFolder, hasCanonicalizer).lines)
  {
    SuccessLayout(op, quote, traits, hasFolder, hasCanonicalizer);
    var body := Body(op, quote, traits, InsEntries(op).value, OutsEntries(op).value);
    var hook := HookLine(op.cppClassName, |op.arguments|, |op.rets|);
    assert FormatLines(op, quote) == [CustomFormatLine, hook];
    MapSecond(LineText, body, FormatLines(op, quote), MarkerLines(hasFolder, hasCanonicalizer), Closing, hook);
  }

  /**
   * A fixed-arity block prints the `extraClassDefinition` text for its class
   * with the declared argument and return counts, at depth 1.
   */
  lemma HookTextPrinted(op: Operator, quote: string -> string, traits: seq<string>,
                        hasFolder: bool, hasCanonicalizer: bool)
    requires RawEmitOp(op, quote, traits, hasFolder, hasCanonicalizer).failure.None?
    requires !(op.isVararg || op.isVarret)
    ensures (1, ExtraClassDefinition(op.cppClassName, |op.arguments|, |op.rets|))
      in Printed(RawEmitOp(op, quote, traits, hasFolder, hasCanonicalizer).lines)
  {
    HookLinePrinted(op, quote, traits, hasFolder, hasCanonicalizer);
    HookLineText(RawEmitOp(op, quote, traits, hasFolder, hasCanonicalizer).lines,
                 op.cppClassName, |op.arguments|, |op.rets|);
  }

  /** The facts above about one successful block, together. */
  lemma BlockFacts(op: Operator, quote: string -> string, traits: seq<string>,
                   hasFolder: bool, hasCanonicalizer: bool)
    requires RawEmitOp(op, quote, traits, hasFolder, hasCanonicalizer).failure.None?
    ensures var lines := RawEmitOp(op, quote, traits, hasFolder, hasCanonicalizer).lines;
      var variadic := op.isVararg || op.isVarret;
      && (FolderLine in lines <==> hasFolder)
      && (CanonicalizerLine in lines <==> hasCanonicalizer)
      && (HasAssemblyFormat(lines) <==> variadic)
      && (AssemblyFormatLine(op, quote) in lines <==> variadic)
      && (CustomFormatLine in lines <==> !variadic)
      && (HookLine(op.cppClassName, |op.arguments|, |op.rets|) in lines <==> !variadic)
  {
    MarkersIff(op, quote, traits, hasFolder, hasCanonicalizer);
    AssemblyFormatIff(op, quote, traits, hasFolder, hasCanonicalizer);
    CustomFormatIff(op, quote, traits, hasFolder, hasCanonicalizer);
    HooksCarryDeclaredCounts(op, quote, traits, hasFolder, hasCanonicalizer);
    var lines := RawEmitOp(op, quote, traits, hasFolder, hasCanonicalizer).lines;
    AssemblyFormatLineFacts(quote(AssemblyFormat(op)));
    if AssemblyFormatLine(op, quote) in lines {
      var i :| 0 <= i < |lines| && lines[i] == AssemblyFormatLine(op, quote);
      assert IsAssemblyFormatLine(lines[i]);
    }
    if op.isVararg || op.isVarret {
      SuccessLayout(op, quote, traits, hasFolder, hasCanonicalizer);
      var body := Body(op, quote, traits, InsEntries(op).value, OutsEntries(op).value);
      MemberOfPart(AssemblyFormatLine(op, quote), body, FormatLines(op, quote), MarkerLines(hasFolder, hasCanonicalizer), Closing);
    }
  }

  /** The marker lines: one per set flag, the folder first and the canonicalizer last. */
  lemma MarkerLinesShape(hasFolder: bool, hasCanonicalizer: bool)
    ensures var ml := MarkerLines(hasFolder, hasCanonicalizer);
      && |ml| == (if hasFolder then 1 else 0) + (if hasCanonicalizer then 1 else 0)
      && (hasFolder ==> ml[0] == FolderLine)
      && (hasCanonicalizer ==> ml[|ml| - 1] == CanonicalizerLine)
  {
  }

  /**
   * In `a + b + m + d`, where `b` and the first and last elements of `m` sit,
   * counted from the end.
   */
  lemma TailPlacement<T>(a: seq<T>, b: seq<T>, m: seq<T>, d: seq<T>, first: bool, last: bool, f: T, c: T)
    requires |m| == (if first then 1 else 0) + (if last then 1 else 0)
    requires first ==> m[0] == f
    requires last ==> m[|m| - 1] == c
    ensures var s := a + b + m + d;
      && |s| >= |d| + |m| + |b|
      && s[|s| - |d| - |m| - |b|..|s| - |d| - |m|] == b
      && (first ==> s[|s| - |d| - |m|] == f)
      && (last ==> s[|s| - |d| - 1] == c)
      && s[|s| - |d|..] == d
  {
    var s := a + b + m + d;
    SectionSlices(a, b, m, d);
    if first {
      assert s[|s| - |d| - |m|] == s[|s| - |d| - |m|..|s| - |d|][0];
    }
    if last {
      assert s[|s| - |d| - 1] == s[|s| - |d| - |m|..|s| - |d|][|m| - 1];
    }
  }

  /**
   * The markers follow the format section in the order folder, canonicalizer,
   * and are followed only by the closing brace and the blank separator.
   */
  lemma MarkerPlacement(op: Operator, quote: string -> string, traits: seq<string>,
                        hasFolder: bool, hasCanonicalizer: bool)
    requires RawEmitOp(op, quote, traits, hasFolder, hasCanonicalizer).failure.None?
    ensures var lines := RawEmitOp(op, quote, traits, hasFolder, hasCanonicalizer).lines;
      var k := (if hasFolder then 1 else 0) + (if hasCanonicalizer then 1 else 0);
      var fl := FormatLines(op, quote);
      && |lines| >= 2 + k + |fl|
      && lines[|lines| - 2 - k - |fl|..|lines| - 2 - k] == fl
      && (hasFolder ==> lines[|lines| - 2 - k] == FolderLine)
      && (hasCanonicalizer ==> lines[|lines| - 3] == CanonicalizerLine)
      && lines[|lines| - 2..] == [Line(0, "}"), Line(0, "\n")]
  {
    SuccessLayout(op, quote, traits, hasFolder, hasCanonicalizer);
    var body := Body(op, quote, traits, InsEntries(op).value, OutsEntries(op).value);
    MarkerLinesShape(hasFolder, hasCanonicalizer);
    TailPlacement(body, FormatLines(op, quote), MarkerLines(hasFolder, hasCanonicalizer), Closing,
                  hasFolder, hasCanonicalizer, FolderLine, CanonicalizerLine);
  }

  /**
   * What a caller of `raw_emit_op` can rely on, together: the header comes
   * first, rendering fails exactly on an unmapped resolved type, and a
   * successful block has the marker, format and hook facts of `BlockFacts`.
   */
  lemma RenderFacts(op: Operator, quote: string -> string, traits: seq<string>,
                    hasFolder: bool, hasCanonicalizer: bool)
    ensures var r := RawEmitOp(op, quote, traits, hasFolder, hasCanonicalizer);
      var variadic := op.isVararg || op.isVarret;
      && Header(op, quote, traits) <= r.lines
      && |r.lines| >= 5 && r.lines[0] == DefLine(op, quote) && r.lines[1] == TraitLine(traits)
      && r.lines[3] == SummaryLine(op, quote)
      && (r.failure.None? <==> Resolvable(op))
      && (r.failure.None? ==>
            && (FolderLine in r.lines <==> hasFolder)
            && (CanonicalizerLine in r.lines <==> hasCanonicalizer)
            && (AssemblyFormatLine(op, quote) in r.lines <==> variadic)
            && (CustomFormatLine in r.lines <==> !variadic)
            && (HookLine(op.cppClassName, |op.arguments|, |op.rets|) in r.lines <==> !variadic))
  {
    HeaderPrintedFirst(op, quote, traits, hasFolder, hasCanonicalizer);
    var lines := RawEmitOp(op, quote, traits, hasFolder, hasCanonicalizer).lines;
    assert lines[..5] == Header(op, quote, traits);
    RawEmitOpFailure(op, quote, traits, hasFolder, hasCanonicalizer);
    if RawEmitOp(op, quote, traits, hasFolder, hasCanonicalizer).failure.None? {
      BlockFacts(op, quote, traits, hasFolder, hasCanonicalizer);
    }
  }

  /**
   * Rendering fails exactly when a type it resolves is unmapped; the error
   * names such a type. An unmapped argument type stops the rendering right
   * after the opening of the `ins` clause, before any return type is looked at;
   * an unmapped return type stops it right after the opening of the `outs` clause.
   */
  lemma RawEmitOpFailure(op: Operator, quote: string -> string, traits: seq<string>,
                         hasFolder: bool, hasCanonicalizer: bool)
    ensures var r := RawEmitOp(op, quote, traits, hasFolder, hasCanonicalizer);
      && (r.failure.None? <==> Resolvable(op))
      && (r.failure.Some? ==> r.failure.value.UnmappedType? && GetOdsType(r.failure.value.typeName).Failure?)
      && (!op.isVararg && !AllMapped(Types(op.arguments)) ==>
            && r.lines == Header(op, quote, traits)
            && r.failure.Some? && r.failure.value.UnmappedType?
            && r.failure.value.typeName in Types(op.arguments))
      && ((op.isVararg || AllMapped(Types(op.arguments))) && !op.isVarret && !AllMapped(Types(op.rets)) ==>
            && r.lines == Header(op, quote, traits) + InsLines(InsEntries(op).value)
            && r.failure.Some? && r.failure.value.UnmappedType?
            && r.failure.value.typeName in Types(op.rets))
  {
  }
}

=== FILE: scenarios.dfy ===
/**
 * Concrete operators from the generator's catalog, worked through the model:
 * what their blocks contain and what their variants are emitted with.
 */
module Scenarios {
  import opened Wrappers
  import opened Operators
  import opened OdsTypes
  import opened Sink
  import opened RawEmit
  import opened EmitOps

  /**
   * `aten::relu : (Tensor) -> (Tensor)`: one argument, one unnamed return. It
   * mutates and aliases nothing, so it is taken to have value semantics and to
   * be read-only, as the registry judges such a schema.
   */
  const Relu: Operator := Operator(
    "aten::relu : (Tensor) -> (Tensor)", Triple("aten", "relu", ""),
    [Param("self", "Tensor")], [Param("", "Tensor")],
    false, false, true, true, "aten.relu", "AtenReluOp")

  /** `aten::add.Tensor : (Tensor, Tensor, Scalar) -> (Tensor)`, value-semantic and read-only like `relu`. */
  const AddTensor: Operator := Operator(
    "aten::add.Tensor : (Tensor, Tensor, Scalar) -> (Tensor)", Triple("aten", "add", "Tensor"),
    [Param("self", "Tensor"), Param("other", "Tensor"), Param("alpha", "Scalar")], [Param("", "Tensor")],
    false, false, true, true, "aten.add.Tensor", "AtenAddTensorOp")

  /** `aten::add_.Tensor`, the in-place variant: it mutates its operand, so neither value-semantic nor read-only. */
  const AddTensorInplace: Operator := Operator(
    "aten::add_.Tensor : (Tensor, Tensor, Scalar) -> (Tensor)", Triple("aten", "add_", "Tensor"),
    [Param("self", "Tensor"), Param("other", "Tensor"), Param("alpha", "Scalar")], [Param("", "Tensor")],
    false, false, false, false, "aten.add_.Tensor", "AtenAdd_TensorOp")

  /** `prim::Print : (...) -> ()`: vararg, no returns. */
  const Print: Operator := Operator(
    "prim::Print : (...) -> ()", Triple("prim", "Print", ""),
    [], [], true, false, false, false, "prim.Print", "PrimPrintOp")

  /** `prim::tolist : (...) -> (...)`: vararg and varret. */
  const ToList: Operator := Operator(
    "prim::tolist : (...) -> (...)", Triple("prim", "tolist", ""),
    [], [], true, true, false, false, "prim.tolist", "PrimTolistOp")

  /**
   * A made-up operator, not in the catalog and not a PyTorch schema, whose
   * return type is not in the table. Its value-semantics and read-only flags
   * play no part in what is proved about it.
   */
  const ComplexOp: Operator := Operator(
    "test::complex_result : (Tensor) -> (Complex)", Triple("test", "complex_result", ""),
    [Param("self", "Tensor")], [Param("", "Complex")],
    false, false, false, true, "test.complex_result", "TestComplexResultOp")

  /** A plain table entry. */
  lemma OptionalTensorListType()
    ensures GetOdsType("Tensor?[]") == Success("AnyTorchListOfOptionalTensorType")
  {
    assert "Tensor?[]"[0] != DictPrefix[0];
  }

  /** A parameterised dictionary spelling, itself not a key of the table. */
  lemma ParameterisedDictType()
    ensures "Dict(str, t)" !in Table
    ensures GetOdsType("Dict(str, t)") == Success("Torch_DictType")
  {
    assert DictPrefix <= "Dict(str, t)";
  }

  /** A spelling the table does not know fails, naming itself. */
  lemma UnknownType()
    ensures GetOdsType("Complex") == Failure(UnmappedType("Complex"))
  {
    assert "Complex"[1] != DictPrefix[1];
  }

  /**
   * `relu` is emitted with the inferred traits only (all three, given the
   * registry's verdicts above), the custom format and hooks for one operand
   * and one result, and no markers.
   */
  lemma ReluBlock(quote: string -> string)
    ensures var r := EmitOp(Relu, quote, Defaults);
      && r.failure.None?
      && r.lines[1] == TraitLine(["AllowsTypeRefinement", "HasValueSemantics", "ReadOnly"])
      && CustomFormatLine in r.lines && !HasAssemblyFormat(r.lines)
      && HookLine("AtenReluOp", 1, 1) in r.lines
      && FolderLine !in r.lines && CanonicalizerLine !in r.lines
  {
    var traits := InferTraits(Relu, None);
    assert traits == ["AllowsTypeRefinement", "HasValueSemantics", "ReadOnly"];
    assert GetOdsType("Tensor").Success?;
    assert Resolvable(Relu);
    CustomFormatIff(Relu, quote, traits, false, false);
    AssemblyFormatIff(Relu, quote, traits, false, false);
    HooksCarryDeclaredCounts(Relu, quote, traits, false, false);
  }

  /**
   * An unmapped return type fails after the `ins` clause and the opening of
   * the `outs` clause have been printed.
   */
  lemma ComplexReturnFails(quote: string -> string)
    ensures var r := EmitOp(ComplexOp, quote, Defaults);
      && r.failure == Some(UnmappedType("Complex"))
      && |r.lines| == 8 && r.lines[7] == Line(1, "let results = (outs")
  {
    assert GetOdsType("Tensor").Success?;
    UnknownType();
    assert Types(ComplexOp.arguments) == ["Tensor"];
    assert InsEntries(ComplexOp).Success?;
    assert Types(ComplexOp.rets) == ["Complex"];
    assert OutsEntries(ComplexOp) == Failure(UnmappedType("Complex"));
  }

  /** The two spellings `add.Tensor` declares. */
  lemma TensorAndScalarMapped()
    ensures GetOdsType("Tensor") == Success("AnyTorchTensorType")
    ensures GetOdsType("Scalar") == Success("AnyTorchScalarType")
  {
    assert "Tensor"[0] != DictPrefix[0] && "Scalar"[0] != DictPrefix[0];
  }

  /** Every type `add.Tensor` and `add_.Tensor` declare is in the table. */
  lemma AddTensorResolvable()
    ensures Resolvable(AddTensor) && Resolvable(AddTensorInplace)
  {
    TensorAndScalarMapped();
    assert Types(AddTensor.arguments) == Types(AddTensorInplace.arguments) == ["Tensor", "Tensor", "Scalar"];
    assert Types(AddTensor.rets) == Types(AddTensorInplace.rets) == ["Tensor"];
  }

  /** The registry the `add.Tensor` scenarios run against; `withVariant` says whether `add_.Tensor` is in it. */
  function AddRegistry(withVariant: bool): Registry
  {
    Registry(map[AddTensor.uniqueKey := AddTensor],
             if withVariant then map[AddTensorInplace.triple := AddTensorInplace] else map[])
  }

  /**
   * `add.Tensor` with a canonicalizer: the variant `add_.Tensor` is looked up
   * by triple and emitted with the in-place trait, and without the
   * canonicalizer the base block declares.
   */
  lemma AddTensorVariant(quote: string -> string)
    ensures VariantTriple(AddTensor.triple) == Triple("aten", "add_", "Tensor")
    ensures var opts := EmitOptions(None, false, true);
      var base := EmitOp(AddTensor, quote, opts);
      var r := EmitWithMutatingVariants(AddRegistry(true), AddTensor.uniqueKey, quote, opts);
      && base.failure.None? && CanonicalizerLine in base.lines
      && r.failure.None?
      && |r.lines| >= |base.lines| + 5
      && r.lines[|base.lines|] == DefLine(AddTensorInplace, quote)
      && r.lines[|base.lines| + 1] == TraitLine(["IsTrailingUnderscoreInplaceVariant", "AllowsTypeRefinement"])
      && CanonicalizerLine !in r.lines[|base.lines|..]
  {
    AddTensorResolvable();
    var reg := AddRegistry(true);
    assert reg.byKey[AddTensor.uniqueKey] == AddTensor;
    assert VariantTriple(AddTensor.triple) == AddTensorInplace.triple;
    assert reg.byTriple[AddTensorInplace.triple] == AddTensorInplace;
    assert InferTraits(AddTensorInplace, Some(VariantTraits(AddTensor.triple)))
      == ["IsTrailingUnderscoreInplaceVariant", "AllowsTypeRefinement"];
  }

  /** Without `add_.Tensor` in the registry the base block stays printed and the lookup error follows it. */
  lemma AddTensorMissingVariant(quote: string -> string)
    ensures var base := EmitOp(AddTensor, quote, Defaults);
      EmitWithMutatingVariants(AddRegistry(false), AddTensor.uniqueKey, quote, Defaults)
        == Output(base.lines, Some(UnresolvedVariant(Triple("aten", "add_", "Tensor"))))
  {
    AddTensorResolvable();
    var reg := AddRegistry(false);
    assert reg.byKey[AddTensor.uniqueKey] == AddTensor;
    var vt := VariantTriple(AddTensor.triple);
    assert vt == AddTensorInplace.triple;
    assert vt !in reg.byTriple;
    assert EmitOp(AddTensor, quote, Defaults).failure.None?;
  }

  /** `prim::Print` has operand types but no result types, so its format has no arrow. */
  lemma PrintFormat()
    ensures Arrow(Print) == ""
    ensures AssemblyFormat(Print) == VarargOperands + " attr-dict `:` " + Qualified("operands")
  {
    ArrowIff(Print);
    ResultTypesEmptyIff(Print);
    var t := Qualified("operands");
    assert t + "" + "" == t;
  }

  /** `prim::tolist` has both type clauses, joined by an arrow. */
  lemma ToListFormat()
    ensures Arrow(ToList) == " `->` "
    ensures AssemblyFormat(ToList)
      == VarargOperands + " attr-dict `:` " + Qualified("operands") + " `->` " + Qualified("results")
  {
    ArrowIff(ToList);
  }

  /**
   * `quantized::linear` is emitted with `traits=["HasValueSemantics"]`. That
   * trait comes first, before `AllowsTypeRefinement`, and is listed a second
   * time exactly when the registry also judges the operator value-semantic.
   */
  lemma QuantizedLinearDuplicateTrait(op: Operator)
    ensures InferTraits(op, Some(["HasValueSemantics"]))[..2] == ["HasValueSemantics", "AllowsTypeRefinement"]
    ensures multiset(InferTraits(op, Some(["HasValueSemantics"])))["HasValueSemantics"]
      == if op.hasValueSemantics then 2 else 1
  {
    TraitsKeepDuplicates(op, ["HasValueSemantics"], "HasValueSemantics");
  }
}

=== FILE: sink.dfy ===
/**
 * The text sink as the generator uses it: every `print` appends one string at
 * the current indentation depth, and a raised error stops the printing but
 * leaves what was already printed in place.
 */
module Sink {
  import opened Wrappers
  import opened Operators

  /**
   * One `print` call: the indentation depth in force and the string printed.
   * The `extraClassDefinition` line of a fixed-arity operator is kept by the
   * class name and counts it is rendered from (at depth 1); its text is
   * `RawEmit.ExtraClassDefinition` of those values.
   */
  datatype Line =
    | Line(depth: nat, text: string)
    | HookLine(cppClassName: string, nargs: nat, nrets: nat)

  /** What a step leaves in the sink, and the error it raised, if any. */
  datatype Output = Output(lines: seq<Line>, failure: Option<EmitError>)
}

=== FILE: text.dfy ===
/** String helpers the generator relies on: Python's `str(int)` and `sep.join(xs)`. */
module Text {

  predicate IsDigit(c: char)
  {
    '0' <= c <= '9'
  }

  predicate AllDigits(s: string)
  {
    forall i :: 0 <= i < |s| ==> IsDigit(s[i])
  }

  /** `s` occurs in `t` starting at position `i`. */
  predicate OccursAt(t: string, s: string, i: int)
  {
    0 <= i <= |t| - |s| && t[i..i + |s|] == s
  }

  /** `s` occurs somewhere inside `t`. */
  predicate Contains(t: string, s: string)
  {
    exists i :: 0 <= i <= |t| && OccursAt(t, s, i)
  }

  /** A sequence is a prefix of any extension of it. */
  lemma PrefixOfConcat<T>(a: seq<T>, b: seq<T>)
    ensures a <= a + b
  {
    assert (a + b)[..|a|] == a;
  }

  /** A sequence is the tail of any extension of it on the left. */
  lemma SuffixOfConcat<T>(a: seq<T>, b: seq<T>)
    ensures (a + b)[|a|..] == b
  {
  }

  /** The middle of a three-part concatenation occurs in it. */
  lemma ContainsMiddle(a: string, m: string, b: string)
    ensures Contains(a + m + b, m)
  {
    assert OccursAt(a + m + b, m, |a|);
  }

  /** The character spelling the decimal digit `d`. */
  function DigitChar(d: nat): (c: char)
    requires d < 10
    ensures IsDigit(c)
    ensures c as int - '0' as int == d
  {
    ('0' as int + d) as char
  }

  /** Python's `str(n)` for a non-negative int: the shortest decimal spelling. */
  function NatToString(n: nat): (s: string)
    ensures |s| >= 1
    ensures AllDigits(s)
    ensures s[0] == '0' <==> n == 0
    ensures n < 10 ==> s == [DigitChar(n)]
  {
    if n < 10 then [DigitChar(n)] else NatToString(n / 10) + [DigitChar(n % 10)]
  }

  /** Reads a string of decimal digits back as a number. */
  function DecimalValue(s: string): nat
    requires AllDigits(s)
  {
    if s == [] then 0
    else DecimalValue(s[..|s| - 1]) * 10 + (s[|s| - 1] as int - '0' as int)
  }

  /** Reading the decimal spelling of `n` gives `n` back. */
  lemma {:induction false} DecimalRoundTrip(n: nat)
    ensures DecimalValue(NatToString(n)) == n
  {
    if n >= 10 {
      var s := NatToString(n / 10);
      var t := s + [DigitChar(n % 10)];
      assert t[..|t| - 1] == s;
      DecimalRoundTrip(n / 10);
    }
  }

  /** Distinct numbers have distinct decimal spellings. */
  lemma NatToStringInjective(m: nat, n: nat)
    ensures NatToString(m) == NatToString(n) ==> m == n
  {
    DecimalRoundTrip(m);
    DecimalRoundTrip(n);
  }

  /** Python's `sep.join(xs)`. */
  function Join(xs: seq<string>, sep: string): (r: string)
    ensures |xs| == 0 ==> r == ""
    ensures |xs| == 1 ==> r == xs[0]
    ensures |xs| > 0 ==> xs[0] <= r
    ensures r == "" <==> (forall i :: 0 <= i < |xs| ==> xs[i] == "") && (|xs| <= 1 || sep == "")
  {
    if |xs| == 0 then ""
    else if |xs| == 1 then xs[0]
    else xs[0] + sep + Join(xs[1..], sep)
  }

  /**
   * Where item `i` of `sep.join(xs)` starts: the widths of the items before it,
   * each followed by one separator.
   */
  function ItemOffset(xs: seq<string>, sep: string, i: nat): nat
    requires i <= |xs|
  {
    if i == 0 then 0 else |xs[0]| + |sep| + ItemOffset(xs[1..], sep, i - 1)
  }

  /** An occurrence inside `t` is an occurrence inside any extension of `t` on the left. */
  lemma OccursAfter(a: string, t: string, s: string, i: int)
    requires OccursAt(t, s, i)
    ensures OccursAt(a + t, s, |a| + i)
  {
    assert (a + t)[|a| + i..|a| + i + |s|] == t[i..i + |s|];
  }

  /** Unfolding `sep.join(xs)` by its first item. */
  lemma JoinFront(xs: seq<string>, sep: string)
    requires |xs| > 1
    ensures Join(xs, sep) == (xs[0] + sep) + Join(xs[1..], sep)
  {
  }

  /** `sep.join(xs)` is as long as its items and the separators between them. */
  lemma {:induction false} JoinLength(xs: seq<string>, sep: string)
    requires |xs| > 0
    ensures |Join(xs, sep)| == ItemOffset(xs, sep, |xs| - 1) + |xs[|xs| - 1]|
  {
    if |xs| > 1 {
      JoinFront(xs, sep);
      JoinLength(xs[1..], sep);
      assert xs[1..][|xs| - 2] == xs[|xs| - 1];
    }
  }

  /**
   * Item `i` of `sep.join(xs)` starts at `ItemOffset(xs, sep, i)`. With
   * `JoinSeparators` and `JoinLength` this pins the whole string: the items in
   * order, one separator between neighbours, and nothing else.
   */
  lemma {:induction false} JoinItems(xs: seq<string>, sep: string)
    requires |xs| > 0
    ensures forall i :: 0 <= i < |xs| ==> OccursAt(Join(xs, sep), xs[i], ItemOffset(xs, sep, i))
  {
    var j := Join(xs, sep);
    if |xs| == 1 {
      assert j[0..|xs[0]|] == xs[0];
    } else {
      var tail, a := xs[1..], xs[0] + sep;
      JoinFront(xs, sep);
      JoinItems(tail, sep);
      assert j[0..|xs[0]|] == xs[0];
      forall i | 1 <= i < |xs|
        ensures OccursAt(j, xs[i], ItemOffset(xs, sep, i))
      {
        assert xs[i] == tail[i - 1];
        OccursAfter(a, Join(tail, sep), tail[i - 1], ItemOffset(tail, sep, i - 1));
      }
    }
  }

  /** A separator follows every item of `sep.join(xs)` but the last. */
  lemma {:induction false} JoinSeparators(xs: seq<string>, sep: string)
    ensures forall i :: 0 <= i < |xs| - 1 ==> OccursAt(Join(xs, sep), sep, ItemOffset(xs, sep, i) + |xs[i]|)
  {
    if |xs| > 1 {
      var j, tail, a := Join(xs, sep), xs[1..], xs[0] + sep;
      JoinFront(xs, sep);
      JoinSeparators(tail, sep);
      assert j[|xs[0]|..|a|] == sep;
      forall i | 1 <= i < |xs| - 1
        ensures OccursAt(j, sep, ItemOffset(xs, sep, i) + |xs[i]|)
      {
        assert xs[i] == tail[i - 1];
        OccursAfter(a, Join(tail, sep), sep, ItemOffset(tail, sep, i - 1) + |tail[i - 1]|);
      }
    }
  }

  /** The number of decimal digits `s` starts with. */
  function LeadingDigits(s: string): nat
  {
    if s != [] && IsDigit(s[0]) then 1 + LeadingDigits(s[1..]) else 0
  }

  /** A digit string followed by a non-digit has exactly that many leading digits. */
  lemma {:induction false} LeadingDigitsOfConcat(d: string, r: string)
    requires AllDigits(d)
    requires |r| > 0 && !IsDigit(r[0])
    ensures LeadingDigits(d + r) == |d|
  {
    if d != [] {
      assert (d + r)[1..] == d[1..] + r;
      LeadingDigitsOfConcat(d[1..], r);
    }
  }

  /** A digit string followed by a non-digit can be split off unambiguously. */
  lemma DigitsThenNonDigit(d1: string, r1: string, d2: string, r2: string)
    requires AllDigits(d1) && AllDigits(d2)
    requires |r1| > 0 && !IsDigit(r1[0])
    requires |r2| > 0 && !IsDigit(r2[0])
    requires d1 + r1 == d2 + r2
    ensures d1 == d2 && r1 == r2
  {
    var s := d1 + r1;
    LeadingDigitsOfConcat(d1, r1);
    LeadingDigitsOfConcat(d2, r2);
    assert d1 == s[..|d1|] == d2;
    assert r1 == s[|d1|..] == r2;
  }

  /** Equal strings with a common prefix have equal remainders. */
  lemma StripPrefix(p: string, a: string, b: string)
    requires p + a == p + b
    ensures a == b
  {
    assert a == (p + a)[|p|..];
    assert b == (p + b)[|p|..];
  }
}

=== FILE: wrappers.dfy ===
/** Failure-carrying values used where the generator either returns a value or raises. */
module Wrappers {

  /** A value that may be missing (a Python `None`). */
  datatype Option<+T> = None | Some(value: T) {

    /** The wrapped value, or `default` when there is none (Python's `x or default`). */
    function GetOr(default: T): T
    {
      match this
      case Some(v) => v
      case None => default
    }
  }

  /** The outcome of a step that can raise: a value, or the error it raised. */
  datatype Result<+R, +E> = Success(value: R) | Failure(error: E)
}
